=== FILE: README.md ===
# Flashcard terminal app: a Dafny model of its core

This project models the core of a terminal flashcard program. The core has four parts:

- **The text editor** (`TextEditor`). It holds a UTF-8 buffer with a byte-offset cursor and an optional selection anchor. It provides the editing operations, the cursor moves and the key dispatch. Its `render` greedily wraps the text into lines, locates the cursor, scrolls and styles every character.
- **The page controllers.** The review queue walks through the stored cards with skip, delete and scroll. The "add card" and "edit card" pages forward keys to the editor and save into the card store.
- **The database crate's value types.** These are the id newtypes, the `Seahash` content hash with its 8-byte SQL blob encoding and its decimal text form, the schema-version migration and the lazily opened database handle.
- **The tag reconciliation** of the card editor routes. It is set arithmetic over the `card_tag` relation.

Everything is written as immutable datatypes and pure functions. The only exceptions are the relation updates, which are methods whose loops run over sets.

| file | module | contents |
|---|---|---|
| `wrappers.dfy` | `Wrappers` | `Option`, `Result`, `Min`, `Max` |
| `utf8.dfy` | `Utf8` | UTF-8 lengths, byte offsets of character positions, character boundaries, `chars().next()`, `replace_range` |
| `layout.dfy` | `Layout` | the wrapping loop of `render`, line starts, visual lines, cursor location, scroll, visible rows |
| `rows.dfy` | `Styling` | per-character styles and the styled rows of `render` |
| `keys.dfy` | `Keys` | key codes, modifiers and key events |
| `editor.dfy` | `Editor` | the editor state and every editor operation |
| `editor_props.dfy` | `EditorProps` | properties that relate several editor operations |
| `database.dfy` | `Database` | ids, `Seahash` codecs, decimal parsing and printing, `migrate`, the database handle |
| `pages.dfy` | `Pages` | routes, actions, shortcuts, the card store, and the `Review`, `AddCard` and `EditCard` pages |
| `card_editor.dfy` | `CardEditor` | `add_card` and `edit_card` on the `cards` table and the `card_tag` relation |

Modelling conventions:

- **Panics.** A Rust panic becomes the result `None`. This covers an `unwrap` of a missing value, a `usize` underflow, an index out of bounds and `todo!()`. No precondition rules such inputs out. Separate lemmas show when no panic can happen.
- **Editor validity.** The editor's invariant `Editor.Valid` says the cursor and the anchor are character boundaries. Every editor operation keeps it.
- **Byte offsets.** Text is a `seq<char>`. A byte offset is the summed UTF-8 length (`Utf8.Utf8Len`) of the characters before it, so slicing on a boundary corresponds to slicing the character sequence at `Utf8.Index`.
- **Display width.** The width table of `unicode_width` is the parameter `w: WidthFn`, which maps a character to an optional width. `unwrap_or(1)` is applied on top of it.
- **Cached fields.** `render` writes `line_start_indexes`, `cursor_line_index` and `cursor_column`, and the vertical moves read them. They stay in the editor state. The drawn rows are returned in a `Frame` instead of being stored.
- **Integer widths.** `usize` is 64 bits wide. `SqliteId` is `i64`.
- **Card store.** The pages' card store is an ordered list of ids plus a map from id to text. The list is the iteration order. When a card is added, the id the store hands out is a parameter.
- **Page signatures.** The application loop calls `on_input` with a different argument shape from the one the pages declare. The model follows the pages' own signatures: a `KeyEvent` plus the store.

## Model

| member | source | states |
|---|---|---|
| Utf8.Utf8Len | src/editor.rs:51 | A character's encoded length is 1 to 4 bytes, and exactly 1 for ASCII. |
| Utf8.Index | src/editor.rs:73 | A character boundary is the byte offset of a character position within the text. |
| Utf8.IndexOrder | src/editor.rs:201-205 | On boundaries, comparing byte offsets (as `delete_selection` does) is the same as comparing character positions, for both `<` and `==`. |
| Utf8.CharAfter | src/editor.rs:73 | The character after a boundary exists exactly when the boundary is before the end. It is the character at that position, and stepping over its UTF-8 length lands on the next boundary. |
| Utf8.CharBefore | src/editor.rs:78 | The character before a boundary exists exactly when the boundary is not 0. Stepping back over its length lands on the previous boundary. |
| Utf8.CharEnd | src/editor.rs:208-212 | The end of the character at a boundary is a boundary one character further, or the end of the text. |
| Utf8.ReplaceRange | src/editor.rs:202-203 | Replacing the bytes between two boundaries keeps the characters before and after them, and changes the byte length by exactly the difference. |
| Layout.LineStarts | src/editor.rs:255-323 | The line starts begin at 0, strictly increase, are character boundaries and never exceed the byte length. |
| Layout.LineStartAfter | src/editor.rs:299-322 | A line starts right after a character exactly when that character is `'\n'` or brings its line's running width to at least the area width. |
| Layout.VisualLines | src/editor.rs:271-323 | There is one visual line per line start, and the last line ends at the end of the text. |
| Layout.StartsBeginLines | src/editor.rs:299-323 | Line start `i` is the byte offset where visual line `i` begins: the byte length of the text that lines 0 to `i - 1` account for, with their newlines. |
| Layout.Reconstruct | src/editor.rs:274-323 | Concatenating the visual lines, with the newline of every hard break put back, gives the text exactly. |
| Layout.OnlyLastEndsText | src/editor.rs:299-323 | Every visual line but the last ends at a newline or a wrap. Only the last one, which the loop leaves open, ends the text. |
| Layout.LinesWrapped | src/editor.rs:299-322 | No line contains a newline. A wrapped line reaches the area width only with its last character. Any other line is narrower than the area or empty. |
| Layout.LocateIsLastLineStart | src/editor.rs:278-292 | The cursor's line is the last line starting at or before the cursor, and its column is the display width from that line's start to the cursor. |
| Layout.Scroll | src/editor.rs:325-335 | The cursor's line ends inside the window of `max(height, 1)` lines. The scroll is unchanged when the line was already inside. Otherwise the scroll moves just far enough. |
| Layout.ScrollMinimal | src/editor.rs:325-335 | No other window position containing the cursor's line is closer to the previous scroll. |
| Layout.Visible | src/editor.rs:340-347 | The drawn rows are the rows from `scroll` on, at most `height` of them, in order. |
| Styling.StyleAt | src/editor.rs:263-297 | A character is cursor-styled exactly at the cursor. It is unstyled exactly outside the inclusive range between cursor and anchor. |
| Styling.Rows | src/editor.rs:271-323 | `render` builds one row per line start. |
| Styling.RowsSpans | src/editor.rs:276-322 | Read in order, the rows are each character's spans, plus a trailing cursor cell exactly when the cursor is at the end of the text. |
| Styling.CursorRow | src/editor.rs:278-292 | Exactly one cursor cell is drawn, and it is in the row of the cursor's line. |
| Editor.DeleteSelection | src/editor.rs:200-216 | With the anchor before the cursor, the bytes between them go and the cursor moves to the anchor. With the anchor after the cursor, the character at the cursor stays and everything up to and including the character at the anchor goes. With the anchor equal to the cursor, nothing changes. |
| Editor.TakeSelection | src/editor.rs:47-49 | With an anchor, the anchor is taken and the selection is deleted exactly as `delete_selection` does, leaving a valid editor with no anchor. Without an anchor it is the identity. |
| Editor.PushChar | src/editor.rs:46-52 | After the selection is deleted, the character is inserted at the cursor. The cursor advances by its UTF-8 length, the anchor is gone and nothing else in the text changes. |
| Editor.PushStr | src/editor.rs:54-60 | After the selection is deleted, the string is inserted at the cursor. The cursor advances by its byte length, the anchor is gone and nothing else changes. |
| Editor.Remove | src/editor.rs:122 | `String::remove` at a boundary before the end removes exactly the character at that position. The offset stays a boundary. |
| Editor.DeleteBack | src/editor.rs:116-126 | A selection is deleted as `delete_selection` does and the anchor is taken. Without one, it is `Editor.DeleteBefore`. |
| Editor.DeleteBefore | src/editor.rs:118-123 | The character before the cursor is removed and the cursor moves back by its UTF-8 length onto the previous character position. Nothing else changes. At the start of the text nothing changes at all. |
| Editor.DeleteForward | src/editor.rs:128-137 | A selection is deleted as `delete_selection` does. Without one, the character at the cursor is removed and the cursor stays. At the end nothing changes. |
| Editor.Clear | src/editor.rs:139-149 | The text is empty. The cursor, column, line, scroll and cached lines are reset, and there is no anchor. |
| Editor.SelectAll | src/editor.rs:111-114 | The anchor is at 0 and the cursor at the end. Nothing else changes. |
| Editor.JumpToLine | src/editor.rs:218-247 | The jump succeeds exactly when the line exists and its cached start is a boundary. It then changes only the cursor, the column and the line. |
| Editor.MoveCursor | src/editor.rs:62-109 | Only vertical moves can panic. A move keeps the editor valid and leaves the text, the cached lines and the scroll alone. A plain move drops the anchor. A shifted move sets it to the old cursor only when there was none. A move that ends on the anchor drops it. Start puts the cursor at byte 0 and End at the byte length of the text. Forward, Back, Start and End keep the cached line and column, and so do Up on the first line and Down on the last line, because only `jump_to_line` writes them. |
| Editor.Input | src/editor.rs:151-198 | Every key keeps the editor valid, and only Up and Down can panic. |
| Editor.Render | src/editor.rs:250-348 | `render` keeps the text, cursor and anchor. It caches the area width and the line starts of the wrap. It records the cursor's line and column where the wrap locates the cursor, or 0 and 0 when the cursor is not a character start. It scrolls minimally so that line is inside the window, and draws exactly the rows from the scroll on, at most `height` of them. |
| EditorProps.ForwardStep | src/editor.rs:72-76 | Forward steps over exactly the character at the cursor, and is a no-op at the end. |
| EditorProps.BackStep | src/editor.rs:77-81 | Back steps over exactly the character before the cursor, and is a no-op at the start. |
| EditorProps.ForwardThenBack | src/editor.rs:72-81 | Forward then Back returns to the same offset when the cursor was not at the end. |
| EditorProps.BackThenForward | src/editor.rs:72-81 | Back then Forward returns to the same offset when the cursor was not at the start. |
| EditorProps.UpFromFirstLine | src/editor.rs:82-85 | Up on line 0 puts the cursor at 0. |
| EditorProps.DownFromLastLine | src/editor.rs:89-92 | Down on the last cached line puts the cursor at the end of the text. |
| EditorProps.DownBeforeRender | src/editor.rs:89-90 | Down with no cached lines, as before the first render, panics on the `len() - 1` underflow. |
| EditorProps.VerticalIsJump | src/editor.rs:82-95 | Up and Down away from the first and last line jump to the adjacent line. |
| EditorProps.VerticalMove | src/editor.rs:218-247 | After Up or Down the cursor lies on the adjacent line, at or after its start, with no newline in between. The new column is the width walked. The walk stopped at the saved column, a newline or the end, and never earlier. |
| EditorProps.MovesAfterRender | src/editor.rs:255-323 | After a render, no cursor move panics. |
| EditorProps.InputAfterRender | src/editor.rs:151-198 | After a render, no key panics the editor. |
| EditorProps.CursorDrawn | src/editor.rs:325-347 | With at least one row of area, the drawn rows contain exactly one cursor cell, in the row of the cursor's line. |
| EditorProps.RenderKeepsScroll | src/editor.rs:325-335 | A render keeps the scroll when the cursor's line is already inside the window. |
| EditorProps.PushCharIsPushStr | src/editor.rs:46-60 | `push_char(c)` equals `push_str` of the one-character string. |
| EditorProps.TypeThenBackspace | src/editor.rs:116-126 | With no selection, Backspace right after typing a character restores the editor. |
| EditorProps.TypeLeftDelete | src/editor.rs:128-137 | With no selection, typing a character, moving Back and pressing Delete restores the editor exactly, cached line and column included. |
| EditorProps.SelectAllThenType | src/editor.rs:111-114 | Typing after select-all replaces the whole text by the typed character. |
| EditorProps.SelectAllHighlightsAll | src/editor.rs:263-269 | After select-all, every character is drawn as selected. |
| EditorProps.SelectedWindow | src/editor.rs:286-297 | The selected-styled characters are exactly those in one window of character positions, for either anchor order. |
| EditorProps.DeletedWindow | src/editor.rs:200-216 | Deleting the selection removes exactly the characters of that window. |
| EditorProps.HighlightIsDeletion | src/editor.rs:286-297 | What `render` highlights as selected is exactly what deleting the selection removes, for both anchor orders. |
| Database.SeahashToSql | crates/database/src/database.rs:134-139 | The SQL form of a hash is an 8-byte blob, most significant byte first. |
| Database.SeahashFromSql | crates/database/src/database.rs:127-132 | A non-blob is an `InvalidType` error. A blob whose length is not 8 panics. An 8-byte blob decodes to the hash whose encoding it is. |
| Database.SeahashSqlRoundTrip | crates/database/src/database.rs:127-139 | Decoding an encoded hash gives back the hash. |
| Database.FromBigEndianRoundTrip | crates/database/src/database.rs:130 | Encoding a decoded byte string gives back the bytes. |
| Database.BigEndianRoundTrip | crates/database/src/database.rs:137 | Decoding the big-endian bytes of a value that fits gives back the value. |
| Database.ParseInt | crates/database/src/database.rs:122 | A parsed integer lies within the type's range. The error is `Empty` exactly for the empty string. |
| Database.ParseIntOk | crates/database/src/database.rs:118-125 | A string the parser accepts is an optional sign followed by at least one digit, and it denotes the parsed value. Any other string is an error. |
| Database.ParseIntAccepts | crates/database/src/database.rs:118-125 | Conversely, digits alone, after `+`, or after `-` for a signed type, parse to their value whenever it is in range, leading zeros included (`"007"` is 7). An out-of-range value is `PosOverflow`, or `NegOverflow` after `-`. For an unsigned type a leading `-` is `InvalidDigit`. |
| Database.ParseShow | crates/database/src/database.rs:106-125 | Parsing the decimal display of any in-range integer gives back the integer. |
| Database.SeahashFromStr | crates/database/src/database.rs:118-125 | Parsing a hash fails exactly when the text is not a `u64`, with the same error kind. On success the hash holds the parsed value. |
| Database.SeahashParseDisplay | crates/database/src/database.rs:106-125 | A hash parsed from text is displayed as that same text, unless the text starts with `+` or `0`. |
| Database.SeahashDisplayParse | crates/database/src/database.rs:106-125 | parse(display(h)) == h for every hash. |
| Database.IdFromStr | crates/database/src/database.rs:78-85 | An id parses exactly when its text parses as an `i64`. A failure carries the same error kind, and a success wraps the parsed value. |
| Database.IdDisplayParse | crates/database/src/database.rs:59-85 | parse(display(id)) == id for every id type. |
| Database.Migrate | crates/database/src/database.rs:29-40 | Version 1 is left alone. Version 0 gets the schema once and version 1. Any other version panics. |
| Database.MigrateIdempotent | crates/database/src/database.rs:29-40 | Migrating a migrated database changes nothing, so the schema runs at most once. |
| Database.New | crates/database/src/database.rs:8-10 | A new handle has no connection, so dereferencing it panics. |
| Database.Open | crates/database/src/database.rs:12-18 | A failed open returns the error and leaves the handle untouched. When the connection opens and migrates, the result is `Ok(())` with the migrated connection stored, so the connection is at the current version. A migration panic propagates. |
| Pages.TitlesDistinct | src/pages.rs:13-21 | Two routes have the same title exactly when they are the same kind of page. |
| Pages.StoreAdd | src/pages.rs:227 | Adding a card keeps the store consistent and puts the new id last in iteration order. |
| Pages.StoreRemove | src/pages.rs:103 | Removing a card drops it from the map and the order and keeps the store consistent. |
| Pages.ReviewOnEnter | src/pages.rs:66-74 | The store's ids are queued in reverse, `total` is the queue length, and the card at the back is popped and shown. A missing card panics. |
| Pages.ReviewEnterShowsFirst | src/pages.rs:66-74 | From a fresh page, `total` is the number of cards. The first card in store order is shown, or nothing is shown when the store is empty. |
| Pages.ReviewEnterInv | src/pages.rs:66-74 | Entering from a fresh page establishes the review invariant: the queue holds distinct stored ids, and the shown card is stored and not queued. |
| Pages.ReviewDelete | src/pages.rs:102-113 | Delete removes the current card from the store. It then shows the card popped from the back of the queue, or enters `Done`. |
| Pages.ReviewSkip | src/pages.rs:129-138 | With a non-empty queue, skip puts the current id at the front and shows the id popped from the back. The multiset of the shown id plus the queue is preserved. With an empty queue nothing changes. |
| Pages.ReviewOnInput | src/pages.rs:94-155 | Only key presses act. Any key that does not ask for a render leaves page and store as they were. |
| Pages.ReviewScroll | src/pages.rs:117-127 | Up and Down change the scroll by one, saturating at 0 and at `usize::MAX`. |
| Pages.ReviewKeys | src/pages.rs:94-155 | The key bindings of the review page, for any modifiers. Esc quits and Tab opens the add page in every state. While a card is shown, `e` opens its edit page, Delete runs the deletion, Right runs the skip, and Up and Down scroll. Every other press does nothing and changes nothing. |
| Pages.ReviewOnExit | src/pages.rs:157-164 | Leaving the review restores every field to that of a fresh page. |
| Pages.SkipShortcutHonest | src/pages.rs:166-190 | The skip shortcut is listed exactly when pressing Right would skip to another card. |
| Pages.ReviewInputInv | src/pages.rs:94-155 | Under the review invariant no key panics, and every key keeps the invariant. |
| Pages.AddCardOnInput | src/pages.rs:220-255 | The editor stays valid. Only Ctrl+S changes the store. Only an editor panic on Up or Down outside the preview panics. |
| Pages.AddCardNavigation | src/pages.rs:220-224 | On the add page, Esc quits and Tab goes to the review, whatever the modifiers, with page and store unchanged. |
| Pages.AddCardToEditor | src/pages.rs:245-250 | In the preview the key is ignored. Otherwise it goes to the editor and asks for a render. |
| Pages.AddCardSave | src/pages.rs:225-231 | Ctrl+S adds exactly one card holding the editor text. It then clears the editor and resets the preview and the scroll. |
| Pages.AddCardPlainLetters | src/pages.rs:225-244 | Plain `s` and `p` are typed into the editor outside the preview and ignored inside it. |
| Pages.AddCardTogglePreview | src/pages.rs:237-244 | Ctrl+P toggles the preview and nothing else. |
| Pages.AddCardOnExit | src/pages.rs:262-265 | Leaving the add page resets the preview and the scroll but keeps the draft. |
| Pages.EditCardOnEnter | src/pages.rs:294-299 | A missing card panics. Otherwise the card's text is typed into the editor and the cursor is put at 0 with no anchor. |
| Pages.EditCardLoads | src/pages.rs:294-299 | From an empty editor, entering loads exactly the card's text with the cursor at 0. |
| Pages.EditCardOnInput | src/pages.rs:309-349 | Only the edited card's text can change in the store. The page panics exactly on Ctrl+S for a card gone from the store, or on an editor panic. |
| Pages.EditCardNavigation | src/pages.rs:309-330 | On the edit page, Esc quits and Ctrl+C goes back to the review without saving, with page and store unchanged. |
| Pages.EditCardToEditor | src/pages.rs:339-344 | In the preview the key is ignored. Otherwise it goes to the editor, which panics only where the editor's input does. |
| Pages.EditCardSave | src/pages.rs:313-317 | Ctrl+S writes the editor text into this card only and returns to the review. |
| Pages.EditCardPlainLetters | src/pages.rs:313-338 | Plain `s`, `c` and `p` are typed outside the preview and ignored inside it. |
| Pages.EditCardOnExit | src/pages.rs:356-360 | Leaving the edit page clears the editor and resets the preview and the scroll. |
| Pages.EditCardExitThenEnter | src/pages.rs:356-360 | After leaving, entering another card shows exactly that card's text, not a mix with the old one. |
| Pages.MenuShortcutMatchesTab | src/pages.rs:362-369 | Each page lists the menu shortcut exactly when Tab leads to another page. Per page kind this is a fixed fact: the review and add pages do both, and the edit page does neither. |
| CardEditor.TagDiff | src/routes/card_editor.rs:129-130 | `to_add` and `to_remove` are disjoint, and applying them to `current` gives `selected`. |
| CardEditor.InsertRows | src/routes/card_editor.rs:132-138 | Whatever order the set yields, the inserts add exactly one row per tag for the card. |
| CardEditor.DeleteRows | src/routes/card_editor.rs:140-146 | Whatever order the set yields, the deletes remove exactly the card's rows for those tags. |
| CardEditor.AddCard | src/routes/card_editor.rs:45-58 | `add_card` inserts one card, then exactly one `card_tag` row per selected tag, all pointing at the new row id. When every row pointed at a stored card before, the new card's tags are exactly the selection. |
| CardEditor.EditCard | src/routes/card_editor.rs:116-147 | The card's content is replaced and no row of another card changes. The card's tags become current-tag set plus `to_add` minus `to_remove`, which is exactly `selected` when `current` matched the relation. |

## Left out

- The application loop (`src/app.rs`): reading terminal events, drawing and routing between pages are I/O.
- The `Markup` renderer and every `on_render` except the editor's: they write ratatui cells, and `Markup` (which also moves the review and preview scroll) is not part of this model.
- ratatui's `Buffer`, `Line` and `Span`: rows are sequences of (text, style) pairs. The editor's `line_spans` field is returned in the `Frame` instead of being stored.
- The `unicode_width` table: it is the parameter `w`. Tabs get no special treatment, as in the code, which leaves them as TODOs.
- `on_paste` of both editing pages: each is an empty stub that returns `Action::None`.
- `AddCard::on_enter`: its body is empty, so the page is unchanged.
- `Pages::new` and the `new` of each page: they are the constants `ReviewNew`, `AddCardNew` and `EditCardNew`. `CardId::default()` is taken to be the zero id, because the derive that supplies it is in code this model does not include.
- `as_str`: it only exposes the editor's text field.
- The `progress` field of the review: no modelled code changes it.
- The application's card store (`crate::database`) is not part of this model. Only the operations the pages call are modelled: iteration, `get`, `get_mut`, `add` and `remove`. The store chooses the id of a new card, so that id is a parameter.
- The SQLite engine and `schema.sql`: a connection is its schema version plus a count of schema runs. Whether opening and running the schema succeed are parameters.
- Engine failures of `execute_one` in `add_card` and `edit_card` are not modelled. These are constraint violations, which `unwrap` turns into panics. An `UPDATE` that matches no row changes nothing. The row id of `last_insert_rowid` is a parameter that no stored card has.
- `From<&[u8]> for Seahash`: it calls the external `seahash::hash`.
- `ToSql`/`FromSql` of the id newtypes: they delegate to the `SqliteId` implementations, which are not part of this model.
- `from_raw` and `raw`: the constructor `Id`/`Seahash` and the field `raw` of the datatypes. They are inverse by construction, so no separate lemma states it.
- `store_assets`, the Dioxus components of the card editor routes, `src/routes/cards.rs`, the Electron/React files, the config crate and `src/main.rs`: UI, regex and filesystem code outside the core.
- Styling.Rows: row `i` is not stated to hold exactly the spans of visual line `i`. `Styling.RowsSpans` states what all rows hold when read in order, `Styling.CursorRow` states which row holds the cursor cell, and `Layout.VisualLines` and `Layout.Reconstruct` state how the text splits into lines.
- Editor.Input: its contract states only that every key keeps the editor valid and that only Up and Down can panic. No contract or lemma states which operation each key runs. That dispatch is the body's `match` on the key code.
- Editor offsets, columns and scroll are unbounded naturals: a `usize` overflow would need a text longer than memory. `Area` sides are not limited to 16 bits.
- `Pages.TitlesDistinct`: it is the only fact stated about `Route::title`. The titles themselves are the literal strings of the code.

## Findings

No discrepancy between the code and its evident intent was established.

Two behaviours are worth knowing:

- A Down move before the first `render` panics, because `line_start_indexes.len() - 1` underflows. Up is safe there, because the cursor's line is still 0 and Up on line 0 only moves the cursor to the start. `EditorProps.DownBeforeRender` models this. `EditorProps.InputAfterRender` shows that no key panics once the editor has been drawn.
- With the anchor after the cursor, `delete_selection` keeps the character at the cursor and deletes the one at the anchor. `EditorProps.HighlightIsDeletion` shows this is exactly what `render` highlights, so the asymmetry is consistent between drawing and deleting.

=== FILE: card_editor.dfy ===
/**
 * The two relation updates of src/routes/card_editor.rs: `add_card` and
 * `edit_card`.  The database is reduced to the two tables they write, the
 * `cards` table (row id to content) and the `card_tag` relation (pairs of
 * card id and tag id); every `execute_one` is an insert into or a delete
 * from one of them.
 */
module CardEditor {
  import opened Database

  datatype Tables = Tables(cards: map<SqliteId, seq<char>>, cardTag: set<(SqliteId, SqliteId)>)

  /** The tags the relation attaches to `card`. */
  function TagsOf(db: Tables, card: SqliteId): set<SqliteId> {
    set p | p in db.cardTag && p.0 == card :: p.1
  }

  /** The rows pairing `card` with each tag of `tags`. */
  function Rows(card: SqliteId, tags: set<SqliteId>): set<(SqliteId, SqliteId)> {
    set t | t in tags :: (card, t)
  }

  /** Every `card_tag` row points at a stored card. */
  predicate RowsReferenceCards(db: Tables) {
    forall p :: p in db.cardTag ==> p.0 in db.cards
  }

  /**
   * The two differences `edit_card` computes: the tags to attach
   * (`selected \ current`) and the tags to detach (`current \ selected`).
   * They never overlap, and applying them to `current` gives `selected`.
   */
  function TagDiff(current: set<SqliteId>, selected: set<SqliteId>): (d: (set<SqliteId>, set<SqliteId>))
    ensures d.0 !! d.1
    ensures d.0 !! current && d.1 <= current
    ensures (current + d.0) - d.1 == selected
  {
    (selected - current, current - selected)
  }

  /** One `INSERT INTO card_tag` per tag, in whatever order the set yields them. */
  method InsertRows(db: Tables, card: SqliteId, tags: set<SqliteId>) returns (r: Tables)
    ensures r.cards == db.cards
    ensures r.cardTag == db.cardTag + Rows(card, tags)
  {
    r := db;
    var remaining := tags;
    while remaining != {}
      invariant remaining <= tags
      invariant r.cards == db.cards
      invariant r.cardTag == db.cardTag + Rows(card, tags - remaining)
      decreases |remaining|
    {
      var t :| t in remaining;
      r := r.(cardTag := r.cardTag + {(card, t)});
      assert tags - (remaining - {t}) == (tags - remaining) + {t};
      remaining := remaining - {t};
    }
    assert tags - remaining == tags;
  }

  /** One `DELETE FROM card_tag` per tag, in whatever order the set yields them. */
  method DeleteRows(db: Tables, card: SqliteId, tags: set<SqliteId>) returns (r: Tables)
    ensures r.cards == db.cards
    ensures r.cardTag == db.cardTag - Rows(card, tags)
  {
    r := db;
    var remaining := tags;
    while remaining != {}
      invariant remaining <= tags
      invariant r.cards == db.cards
      invariant r.cardTag == db.cardTag - Rows(card, tags - remaining)
      decreases |remaining|
    {
      var t :| t in remaining;
      r := r.(cardTag := r.cardTag - {(card, t)});
      assert tags - (remaining - {t}) == (tags - remaining) + {t};
      remaining := remaining - {t};
    }
    assert tags - remaining == tags;
  }

  /**
   * `add_card`: one row in `cards` under the row id the engine assigns
   * (`rowId`, not yet in use), then one `card_tag` row per tag.
   */
  method AddCard(db: Tables, content: seq<char>, tags: set<SqliteId>, rowId: SqliteId) returns (r: Tables)
    requires rowId !in db.cards
    ensures r.cards == db.cards[rowId := content]
    ensures r.cardTag == db.cardTag + Rows(rowId, tags)
    ensures RowsReferenceCards(db) ==> TagsOf(r, rowId) == tags && RowsReferenceCards(r)
  {
    r := db.(cards := db.cards[rowId := content]);
    r := InsertRows(r, rowId, tags);
    if RowsReferenceCards(db) {
      TagsOfAdded(db, rowId, tags, content);
    }
  }

  lemma TagsOfAdded(db: Tables, card: SqliteId, tags: set<SqliteId>, content: seq<char>)
    requires RowsReferenceCards(db) && card !in db.cards
    ensures var r := Tables(db.cards[card := content], db.cardTag + Rows(card, tags));
      TagsOf(r, card) == tags && RowsReferenceCards(r)
  {
    var r := Tables(db.cards[card := content], db.cardTag + Rows(card, tags));
    forall t | t in tags
      ensures t in TagsOf(r, card)
    {
      assert (card, t) in r.cardTag;
    }
  }

  /**
   * `edit_card`: the content of the card is replaced (an `UPDATE` that
   * matches no row changes nothing), then a row is inserted for every tag of
   * `selected \ current` and deleted for every tag of `current \ selected`.
   */
  method EditCard(db: Tables, cardId: SqliteId, content: seq<char>, current: set<SqliteId>, selected: set<SqliteId>)
    returns (r: Tables)
    ensures r.cards == if cardId in db.cards then db.cards[cardId := content] else db.cards
    ensures forall p: (SqliteId, SqliteId) :: p.0 != cardId ==> (p in r.cardTag <==> p in db.cardTag)
    ensures TagsOf(r, cardId) == (TagsOf(db, cardId) + (selected - current)) - (current - selected)
    ensures TagsOf(db, cardId) == current ==> TagsOf(r, cardId) == selected
  {
    r := if cardId in db.cards then db.(cards := db.cards[cardId := content]) else db;
    var d := TagDiff(current, selected);
    r := InsertRows(r, cardId, d.0);
    r := DeleteRows(r, cardId, d.1);
    TagsOfEdited(db, cardId, d.0, d.1);
  }

  lemma TagsOfEdited(db: Tables, card: SqliteId, toAdd: set<SqliteId>, toRemove: set<SqliteId>)
    ensures var r := db.(cardTag := (db.cardTag + Rows(card, toAdd)) - Rows(card, toRemove));
      && TagsOf(r, card) == (TagsOf(db, card) + toAdd) - toRemove
      && forall p: (SqliteId, SqliteId) :: p.0 != card ==> (p in r.cardTag <==> p in db.cardTag)
  {
    var r := db.(cardTag := (db.cardTag + Rows(card, toAdd)) - Rows(card, toRemove));
    forall t | t in (TagsOf(db, card) + toAdd) - toRemove
      ensures t in TagsOf(r, card)
    {
      assert (card, t) in r.cardTag;
    }
  }
}

=== FILE: database.dfy ===
/**
 * The database crate's value types: the id newtypes, the `Seahash` content
 * hash with its SQL blob encoding and its decimal text form, the
 * schema-version migration and the lazily opened `Database` handle.
 *
 * The SQLite engine is not modelled: a connection is reduced to its schema
 * version and a count of how often the schema script ran, and whatever the
 * engine reports (opening the file, running the schema) is a parameter.
 */
module Database {
  import opened Wrappers

  const U64_MAX: int := 0xFFFF_FFFF_FFFF_FFFF
  const I64_MIN: int := -0x8000_0000_0000_0000
  const I64_MAX: int := 0x7FFF_FFFF_FFFF_FFFF

  type U64 = x: int | 0 <= x <= U64_MAX
  type I64 = x: int | I64_MIN <= x <= I64_MAX
  type Byte = x: int | 0 <= x < 256

  /** `SqliteId`, the integer type of SQLite row ids. */
  type SqliteId = I64

  // ---------------------------------------------------------------------------
  // Ids and the hash newtype
  // ---------------------------------------------------------------------------

  /**
   * `make_id_struct!`: a distinct newtype over `SqliteId` per kind of row;
   * the phantom `Kind` keeps a card id from being used as a tag id.
   * `from_raw` is the constructor `Id` and `raw` is the field `raw`.
   */
  datatype Id<Kind> = Id(raw: SqliteId)

  datatype CardKind = CardKind
  datatype ReviewKind = ReviewKind
  datatype TagKind = TagKind

  type CardId = Id<CardKind>
  type ReviewId = Id<ReviewKind>
  type TagId = Id<TagKind>

  /** `ZERO` of every id type. */
  function Zero<Kind>(): (z: Id<Kind>)
    ensures z.raw == 0
  {
    Id(0)
  }

  /** A 64-bit content hash; `from_raw` is the constructor and `raw` the field. */
  datatype Seahash = Seahash(raw: U64)

  // ---------------------------------------------------------------------------
  // Big-endian bytes
  // ---------------------------------------------------------------------------

  function Pow256(n: nat): (p: nat)
    ensures p >= 1
  {
    if n == 0 then 1 else 256 * Pow256(n - 1)
  }

  /** The `n` low bytes of `x`, most significant first (`to_be_bytes`). */
  function BigEndian(x: nat, n: nat): (bs: seq<Byte>)
    ensures |bs| == n
  {
    if n == 0 then [] else BigEndian(x / 256, n - 1) + [x % 256]
  }

  /** The number whose big-endian bytes are `bs` (`from_be_bytes`). */
  function FromBigEndian(bs: seq<Byte>): nat {
    if |bs| == 0 then 0 else FromBigEndian(bs[..|bs| - 1]) * 256 + bs[|bs| - 1]
  }

  lemma {:induction false} FromBigEndianBound(bs: seq<Byte>)
    ensures FromBigEndian(bs) < Pow256(|bs|)
  {
    if |bs| > 0 {
      FromBigEndianBound(bs[..|bs| - 1]);
    }
  }

  /** Reading back the bytes of a number that fits in them gives the number. */
  lemma {:induction false} BigEndianRoundTrip(x: nat, n: nat)
    requires x < Pow256(n)
    ensures FromBigEndian(BigEndian(x, n)) == x
  {
    if n > 0 {
      BigEndianRoundTrip(x / 256, n - 1);
      var bs := BigEndian(x, n);
      assert bs[..n - 1] == BigEndian(x / 256, n - 1);
    }
  }

  /** Writing out the number that `bs` denotes gives back `bs`. */
  lemma {:induction false} FromBigEndianRoundTrip(bs: seq<Byte>)
    ensures BigEndian(FromBigEndian(bs), |bs|) == bs
  {
    if |bs| > 0 {
      var n := |bs| - 1;
      FromBigEndianRoundTrip(bs[..n]);
      var x := FromBigEndian(bs);
      assert x / 256 == FromBigEndian(bs[..n]);
      assert x % 256 == bs[n];
      assert bs == bs[..n] + [bs[n]];
    }
  }

  /** Division with remainder has one answer. */
  lemma DivUnique(x: int, d: int, q: int, r: int)
    requires d > 0 && 0 <= r < d && x == q * d + r
    ensures x / d == q
  {
    var q0, r0 := x / d, x % d;
    assert (q0 - q) * d == r - r0;
    MulSmall(q0 - q, d);
  }

  /** A multiple of `d` strictly between `-d` and `d` is zero. */
  lemma MulSmall(k: int, d: int)
    requires d > 0 && -d < k * d < d
    ensures k == 0
  {
    if k >= 1 {
      MulAtLeast(k, d);
    } else if k <= -1 {
      MulAtLeast(-k, d);
    }
  }

  lemma MulAtLeast(k: int, d: int)
    requires k >= 1 && d > 0
    ensures k * d >= d
  {
  }

  /** Dividing by `a` and then by `b` is dividing by `a * b`. */
  lemma DivDiv(x: nat, a: nat, b: nat)
    requires a > 0 && b > 0
    ensures x / a / b == x / (a * b)
  {
    var q1, r1 := x / a, x % a;
    var q2, r2 := q1 / b, q1 % b;
    Regroup(q2, r2, r1, a, b);
    DigitBound(r2, r1, a, b);
    DivUnique(x, a * b, q2, r2 * a + r1);
  }

  lemma Regroup(q: int, r2: int, r1: int, a: int, b: int)
    ensures (q * b + r2) * a + r1 == q * (a * b) + (r2 * a + r1)
  {
  }

  lemma DigitBound(r2: int, r1: int, a: int, b: int)
    requires 0 <= r2 < b && 0 <= r1 < a
    ensures r2 * a + r1 < a * b
  {
    assert r2 * a <= (b - 1) * a;
  }

  /** Byte `i` of `BigEndian(x, n)` carries the weight 256^(n-1-i). */
  lemma {:induction false} BigEndianByte(x: nat, n: nat, i: nat)
    requires i < n
    ensures BigEndian(x, n)[i] == x / Pow256(n - 1 - i) % 256
  {
    if i < n - 1 {
      BigEndianByte(x / 256, n - 1, i);
      DivDiv(x, 256, Pow256(n - 2 - i));
    }
  }

  // ---------------------------------------------------------------------------
  // SQL values
  // ---------------------------------------------------------------------------

  /** A column value as SQLite stores it; real numbers carry no payload here. */
  datatype SqlValue =
    | Null
    | Integer(integer: I64)
    | Real
    | Text(text: seq<char>)
    | Blob(bytes: seq<Byte>)

  /** The conversion error `as_blob` reports for a value of another type. */
  datatype FromSqlError = InvalidType

  /** `Seahash::to_sql`: an 8-byte blob, most significant byte first. */
  function SeahashToSql(h: Seahash): (v: SqlValue)
    ensures v.Blob? && |v.bytes| == 8
    ensures forall i :: 0 <= i < 8 ==> v.bytes[i] == h.raw / Pow256(7 - i) % 256
  {
    var v := Blob(BigEndian(h.raw, 8));
    assert forall i :: 0 <= i < 8 ==> v.bytes[i] == h.raw / Pow256(7 - i) % 256 by {
      forall i | 0 <= i < 8 {
        BigEndianByte(h.raw, 8, i);
      }
    }
    v
  }

  /**
   * `Seahash::column_result`: a blob of any other length than 8 makes the
   * `unwrap` of the array conversion panic (`None`); a value that is not a
   * blob is an `InvalidType` error.
   */
  function SeahashFromSql(v: SqlValue): (r: Option<Result<Seahash, FromSqlError>>)
    ensures r.None? <==> v.Blob? && |v.bytes| != 8
    ensures r == Some(Err(InvalidType)) <==> !v.Blob?
    ensures r.Some? && r.value.Ok? ==> SeahashToSql(r.value.value) == v
  {
    match v
    case Blob(bytes) =>
      if |bytes| == 8 then
        FromBigEndianBound(bytes);
        assert Pow256(8) == U64_MAX + 1;
        FromBigEndianRoundTrip(bytes);
        Some(Ok(Seahash(FromBigEndian(bytes))))
      else None
    case _ => Some(Err(InvalidType))
  }

  /** decode(encode(h)) == h. */
  lemma SeahashSqlRoundTrip(h: Seahash)
    ensures SeahashFromSql(SeahashToSql(h)) == Some(Ok(h))
  {
    assert Pow256(8) == U64_MAX + 1;
    BigEndianRoundTrip(h.raw, 8);
  }

  // ---------------------------------------------------------------------------
  // Decimal text
  // ---------------------------------------------------------------------------

  /** The kinds of `ParseIntError`. */
  datatype IntErrorKind = Empty | InvalidDigit | PosOverflow | NegOverflow

  predicate IsDigit(c: char) {
    '0' <= c <= '9'
  }

  predicate AllDigits(ds: seq<char>) {
    forall i :: 0 <= i < |ds| ==> IsDigit(ds[i])
  }

  function DigitValue(c: char): nat
    requires IsDigit(c)
  {
    c as int - '0' as int
  }

  function DigitChar(d: nat): (c: char)
    requires d < 10
    ensures IsDigit(c) && DigitValue(c) == d
  {
    ('0' as int + d) as char
  }

  /** The number a string of decimal digits denotes. */
  function DecimalValue(ds: seq<char>): nat
    requires AllDigits(ds)
  {
    if |ds| == 0 then 0 else DecimalValue(ds[..|ds| - 1]) * 10 + DigitValue(ds[|ds| - 1])
  }

  /**
   * The digit loop of the standard library's integer parser, left to right:
   * each character is first checked to be a digit, then folded into the
   * running value, which must stay within [lo, hi] (adding the digit for a
   * positive number, subtracting it for a negative one).  The first failing
   * position decides the error.
   */
  function Accumulate(ds: seq<char>, positive: bool, lo: int, hi: int): (r: Result<int, IntErrorKind>)
    requires lo <= 0 <= hi
    ensures r.Ok? ==> lo <= r.value <= hi && (if positive then r.value >= 0 else r.value <= 0)
    ensures r.Err? ==> r.error != Empty
  {
    if |ds| == 0 then Ok(0)
    else
      match Accumulate(ds[..|ds| - 1], positive, lo, hi)
      case Err(k) => Err(k)
      case Ok(acc) =>
        var c := ds[|ds| - 1];
        if !IsDigit(c) then Err(InvalidDigit)
        else if positive then
          if acc * 10 + DigitValue(c) > hi then Err(PosOverflow) else Ok(acc * 10 + DigitValue(c))
        else
          if acc * 10 - DigitValue(c) < lo then Err(NegOverflow) else Ok(acc * 10 - DigitValue(c))
  }

  /**
   * `str::parse` for an integer type with range [lo, hi]: the empty string is
   * `Empty`; a lone sign is `InvalidDigit`; a leading `+` is skipped; a
   * leading `-` makes the number negative only for a signed type (for an
   * unsigned one it is an invalid digit).
   */
  function ParseInt(s: seq<char>, signed: bool, lo: int, hi: int): (r: Result<int, IntErrorKind>)
    requires lo <= 0 <= hi
    ensures r.Ok? ==> lo <= r.value <= hi
    ensures r == Err(Empty) <==> |s| == 0
  {
    if |s| == 0 then Err(Empty)
    else if (s[0] == '+' || s[0] == '-') && |s| == 1 then Err(InvalidDigit)
    else if s[0] == '+' then Accumulate(s[1..], true, lo, hi)
    else if s[0] == '-' && signed then Accumulate(s[1..], false, lo, hi)
    else Accumulate(s, true, lo, hi)
  }

  /** A successful digit loop read only digits and produced their value. */
  lemma {:induction false} AccumulateOk(ds: seq<char>, positive: bool, lo: int, hi: int)
    requires lo <= 0 <= hi
    requires Accumulate(ds, positive, lo, hi).Ok?
    ensures AllDigits(ds)
    ensures Accumulate(ds, positive, lo, hi).value == if positive then DecimalValue(ds) else -(DecimalValue(ds) as int)
  {
    if |ds| > 0 {
      var init := ds[..|ds| - 1];
      AccumulateOk(init, positive, lo, hi);
      assert forall i :: 0 <= i < |init| ==> ds[i] == init[i];
    }
  }

  /**
   * Malformed input is an error: a string accepted by the parser is an
   * optional sign followed by at least one digit, and denotes the value.
   */
  lemma ParseIntOk(s: seq<char>, signed: bool, lo: int, hi: int)
    requires lo <= 0 <= hi
    requires ParseInt(s, signed, lo, hi).Ok?
    ensures var v := ParseInt(s, signed, lo, hi).value;
      || (IsDigit(s[0]) && AllDigits(s) && v == DecimalValue(s))
      || (s[0] == '+' && |s| >= 2 && AllDigits(s[1..]) && v == DecimalValue(s[1..]))
      || (signed && s[0] == '-' && |s| >= 2 && AllDigits(s[1..]) && v == -(DecimalValue(s[1..]) as int))
  {
    if s[0] == '+' || (s[0] == '-' && signed) {
      AccumulateOk(s[1..], s[0] == '+', lo, hi);
    } else {
      AccumulateOk(s, true, lo, hi);
    }
  }

  /**
   * The digit loop over digits only: it yields the value the digits denote
   * (negated for a negative number) when that fits, and the overflow in the
   * loop's direction otherwise.
   */
  lemma {:induction false} AccumulateDigits(ds: seq<char>, positive: bool, lo: int, hi: int)
    requires lo <= 0 <= hi && AllDigits(ds)
    ensures Accumulate(ds, positive, lo, hi) ==
      if positive then (if DecimalValue(ds) <= hi then Ok(DecimalValue(ds)) else Err(PosOverflow))
      else (if lo <= -(DecimalValue(ds) as int) then Ok(-(DecimalValue(ds) as int)) else Err(NegOverflow))
  {
    if |ds| > 0 {
      var init := ds[..|ds| - 1];
      assert forall i :: 0 <= i < |init| ==> init[i] == ds[i];
      AccumulateDigits(init, positive, lo, hi);
    }
  }

  /** The digit loop rejects a string whose first character is not a digit. */
  lemma {:induction false} AccumulateBadFirst(ds: seq<char>, positive: bool, lo: int, hi: int)
    requires lo <= 0 <= hi
    requires |ds| >= 1 && !IsDigit(ds[0])
    ensures Accumulate(ds, positive, lo, hi) == Err(InvalidDigit)
  {
    if |ds| > 1 {
      var init := ds[..|ds| - 1];
      assert init[0] == ds[0];
      AccumulateBadFirst(init, positive, lo, hi);
    }
  }

  /**
   * Every well-formed string parses: digits, optionally after `+` (or `-`
   * for a signed type), give their value when it is in range, leading zeros
   * included, and the overflow of their sign when it is not. For an
   * unsigned type a leading `-` is an invalid digit.
   */
  lemma ParseIntAccepts(s: seq<char>, signed: bool, lo: int, hi: int)
    requires lo <= 0 <= hi
    ensures |s| >= 1 && AllDigits(s) ==>
      ParseInt(s, signed, lo, hi) == if DecimalValue(s) <= hi then Ok(DecimalValue(s)) else Err(PosOverflow)
    ensures |s| >= 2 && s[0] == '+' && AllDigits(s[1..]) ==>
      ParseInt(s, signed, lo, hi) == if DecimalValue(s[1..]) <= hi then Ok(DecimalValue(s[1..])) else Err(PosOverflow)
    ensures |s| >= 2 && s[0] == '-' && signed && AllDigits(s[1..]) ==>
      ParseInt(s, signed, lo, hi) ==
        if lo <= -(DecimalValue(s[1..]) as int) then Ok(-(DecimalValue(s[1..]) as int)) else Err(NegOverflow)
    ensures |s| >= 1 && s[0] == '-' && !signed ==> ParseInt(s, signed, lo, hi) == Err(InvalidDigit)
  {
    if |s| >= 1 && AllDigits(s) {
      AccumulateDigits(s, true, lo, hi);
    }
    if |s| >= 2 && (s[0] == '+' || (s[0] == '-' && signed)) && AllDigits(s[1..]) {
      AccumulateDigits(s[1..], s[0] == '+', lo, hi);
    }
    if |s| >= 2 && s[0] == '-' && !signed {
      AccumulateBadFirst(s, true, lo, hi);
    }
  }

  /** `Display` of a non-negative number: its decimal digits, no leading zero. */
  function ShowNat(n: nat): (ds: seq<char>)
    ensures |ds| >= 1 && AllDigits(ds)
  {
    if n < 10 then [DigitChar(n)] else ShowNat(n / 10) + [DigitChar(n % 10)]
  }

  /** `Display` of an integer: a `-` before the digits of a negative one. */
  function Show(x: int): seq<char> {
    if x < 0 then ['-'] + ShowNat(-x) else ShowNat(x)
  }

  lemma {:induction false} AccumulateShow(n: nat, positive: bool, lo: int, hi: int)
    requires lo <= 0 <= hi
    requires if positive then n <= hi else lo <= -(n as int)
    ensures Accumulate(ShowNat(n), positive, lo, hi) == Ok(if positive then n else -(n as int))
  {
    var ds := ShowNat(n);
    if n < 10 {
      assert ds[..0] == [];
    } else {
      AccumulateShow(n / 10, positive, lo, hi);
      assert ds[..|ds| - 1] == ShowNat(n / 10);
    }
  }

  /** parse(display(x)) == x for every value of the integer type. */
  lemma ParseShow(x: int, signed: bool, lo: int, hi: int)
    requires lo <= 0 <= hi && lo <= x <= hi
    requires x < 0 ==> signed
    ensures ParseInt(Show(x), signed, lo, hi) == Ok(x)
  {
    if x < 0 {
      AccumulateShow(-x, false, lo, hi);
      assert Show(x)[1..] == ShowNat(-x);
    } else {
      AccumulateShow(x, true, lo, hi);
    }
  }

  /** `Seahash::fmt`: the decimal digits of the hash. */
  function SeahashDisplay(h: Seahash): seq<char> {
    ShowNat(h.raw)
  }

  /** `Seahash::from_str`: `parse::<u64>`. */
  function SeahashFromStr(s: seq<char>): (r: Result<Seahash, IntErrorKind>)
    ensures r.Err? <==> ParseInt(s, false, 0, U64_MAX).Err?
    ensures r.Err? ==> r.error == ParseInt(s, false, 0, U64_MAX).error
    ensures r.Ok? ==> r.value.raw == ParseInt(s, false, 0, U64_MAX).value
  {
    match ParseInt(s, false, 0, U64_MAX)
    case Ok(v) => Ok(Seahash(v))
    case Err(k) => Err(k)
  }

  /**
   * display(parse(s)) == s for every accepted text without a leading `+` or
   * `0`: those two are the only ways to spell a hash non-canonically.
   */
  lemma SeahashParseDisplay(s: seq<char>)
    requires SeahashFromStr(s).Ok?
    ensures SeahashDisplay(SeahashFromStr(s).value) == s || (|s| >= 1 && (s[0] == '+' || s[0] == '0'))
  {
    ParseIntOk(s, false, 0, U64_MAX);
    if |s| >= 1 && IsDigit(s[0]) && s[0] != '0' {
      CanonicalDigits(s);
    }
  }

  /** Digits with no leading zero are the display of their value. */
  lemma {:induction false} CanonicalDigits(ds: seq<char>)
    requires |ds| >= 1 && AllDigits(ds) && ds[0] != '0'
    ensures ShowNat(DecimalValue(ds)) == ds
  {
    var n := |ds| - 1;
    if n == 0 {
      assert DecimalValue(ds) == DigitValue(ds[0]);
    } else {
      var init := ds[..n];
      assert init[0] == ds[0];
      CanonicalDigits(init);
      DecimalPositive(init);
      assert ds == init + [ds[n]];
    }
  }

  lemma {:induction false} DecimalPositive(ds: seq<char>)
    requires |ds| >= 1 && AllDigits(ds) && ds[0] != '0'
    ensures DecimalValue(ds) >= 1
  {
    if |ds| > 1 {
      var init := ds[..|ds| - 1];
      assert init[0] == ds[0];
      DecimalPositive(init);
    }
  }

  /** parse(display(h)) == h. */
  lemma SeahashDisplayParse(h: Seahash)
    ensures SeahashFromStr(SeahashDisplay(h)) == Ok(h)
  {
    ParseShow(h.raw, false, 0, U64_MAX);
  }

  /** The `Display` of an id: the decimal form of its `SqliteId`. */
  function IdDisplay<Kind>(id: Id<Kind>): seq<char> {
    Show(id.raw)
  }

  /** The `FromStr` of an id: `parse::<SqliteId>`. */
  function IdFromStr<Kind>(s: seq<char>): (r: Result<Id<Kind>, IntErrorKind>)
    ensures r.Err? <==> ParseInt(s, true, I64_MIN, I64_MAX).Err?
    ensures r.Err? ==> r.error == ParseInt(s, true, I64_MIN, I64_MAX).error
    ensures r.Ok? ==> r.value.raw == ParseInt(s, true, I64_MIN, I64_MAX).value
  {
    match ParseInt(s, true, I64_MIN, I64_MAX)
    case Ok(v) => Ok(Id(v))
    case Err(k) => Err(k)
  }

  /** parse(display(id)) == id for every id type. */
  lemma IdDisplayParse<Kind>(id: Id<Kind>)
    ensures IdFromStr(IdDisplay(id)) == Ok(id)
  {
    ParseShow(id.raw, true, I64_MIN, I64_MAX);
  }

  // ---------------------------------------------------------------------------
  // Migration and the database handle
  // ---------------------------------------------------------------------------

  const CURRENT_VERSION: SqliteId := 1

  /** A connection, reduced to its schema version and the schema script's runs. */
  datatype Sqlite = Sqlite(version: SqliteId, schemaRuns: nat)

  datatype SqliteError = SqliteError(message: seq<char>)

  /**
   * `migrate`: a database at the current version is left alone; one at
   * version 0 gets the schema script and the current version; any other
   * version reaches `todo!()`.  `schemaOk` is whether the engine accepted
   * the script (its `unwrap` panics otherwise); `None` is a panic.
   */
  function Migrate(s: Sqlite, schemaOk: bool): (r: Option<Sqlite>)
    ensures r.Some? <==> s.version == CURRENT_VERSION || (s.version == 0 && schemaOk)
    ensures r.Some? ==> r.value.version == CURRENT_VERSION
    ensures r.Some? ==> r.value.schemaRuns == s.schemaRuns + (if s.version == 0 then 1 else 0)
  {
    if s.version == CURRENT_VERSION then Some(s)
    else if s.version == 0 then
      if schemaOk then Some(s.(version := CURRENT_VERSION, schemaRuns := s.schemaRuns + 1)) else None
    else None
  }

  /** A migrated database needs no further migration: the schema runs at most once. */
  lemma MigrateIdempotent(s: Sqlite, ok: bool, ok': bool)
    requires Migrate(s, ok).Some?
    ensures Migrate(Migrate(s, ok).value, ok') == Migrate(s, ok)
  {
  }

  /** `Database`: an optional open connection. */
  datatype Db = Db(connection: Option<Sqlite>)

  /** `Database::new`: no connection yet. */
  function New(): (d: Db)
    ensures Deref(d).None?
  {
    Db(None)
  }

  /** `Deref`: the connection; `None` is the panic of unwrapping a missing one. */
  function Deref(d: Db): Option<Sqlite> {
    d.connection
  }

  /**
   * `Database::open`: `connect` is what the engine returned for the path.  A
   * failure is returned with the handle untouched; otherwise the connection
   * is migrated and stored.  The outer `None` is a panic inside `migrate`.
   */
  function Open(d: Db, connect: Result<Sqlite, SqliteError>, schemaOk: bool): (r: Option<(Db, Result<(), SqliteError>)>)
    ensures connect.Err? ==> r == Some((d, Err(connect.error)))
    ensures r.None? <==> connect.Ok? && Migrate(connect.value, schemaOk).None?
    ensures r.Some? && r.value.1.Ok? ==>
      && Deref(r.value.0).Some?
      && Deref(r.value.0).value.version == CURRENT_VERSION
    ensures connect.Ok? && Migrate(connect.value, schemaOk).Some? ==>
      r == Some((Db(Some(Migrate(connect.value, schemaOk).value)), Ok(())))
  {
    match connect
    case Err(e) => Some((d, Err(e)))
    case Ok(s) =>
      match Migrate(s, schemaOk)
      case None => None
      case Some(m) => Some((Db(Some(m)), Ok(())))
  }
}

=== FILE: editor.dfy ===
/**
 * The terminal text editor of src/editor.rs (`TextEditor`): a UTF-8 buffer
 * with a byte-offset cursor and an optional selection anchor, the editing
 * operations on it, cursor moves, key dispatch and `render`.
 *
 * A Rust panic (an `unwrap` on `None`, an index out of bounds, a `usize`
 * underflow, slicing off a character boundary) is modelled as the result
 * `None`. `Valid` is the invariant every operation keeps: cursor and anchor
 * are character boundaries of the text, so none of the slicing can panic.
 */
module Editor {
  import opened Wrappers
  import opened Utf8
  import opened Layout
  import opened Styling
  import Keys

  datatype CursorMove = Forward | Back | Up | Down | Start | End

  /**
   * The editor's fields. `column`, `cursorLine` and `lineStarts` are caches
   * that `Render` writes and the vertical moves read; the drawn rows
   * (`line_spans`) are returned by `Render` instead of being stored.
   */
  datatype TextEditor = TextEditor(
    text: seq<char>,
    lineWidth: nat,
    cursor: nat,
    column: nat,
    cursorLine: nat,
    lineStarts: seq<nat>,
    anchor: Option<nat>,
    scroll: nat)

  predicate Valid(e: TextEditor) {
    && IsBoundary(e.text, e.cursor)
    && (e.anchor.Some? ==> IsBoundary(e.text, e.anchor.value))
  }

  /** `TextEditor::new`: empty text, everything zero, no anchor, no cached lines. */
  function New(): TextEditor {
    TextEditor([], 0, 0, 0, 0, [], None, 0)
  }

  /**
   * `delete_selection(a)`, for an anchor `a` already taken out of the editor.
   * Anchor before the cursor: the bytes `[a, cursor)` go and the cursor moves
   * to `a`. Anchor after the cursor: the character at the cursor stays and
   * everything after it up to and including the character at the anchor (or
   * to the end) goes, the cursor staying put. Equal: nothing happens.
   */
  function DeleteSelection(e: TextEditor, a: nat): (r: TextEditor)
    requires IsBoundary(e.text, e.cursor) && IsBoundary(e.text, a)
    ensures IsBoundary(r.text, r.cursor)
    ensures r == e.(text := r.text, cursor := r.cursor)
    ensures Index(e.text, a) < Index(e.text, e.cursor) ==>
      && r.text == e.text[..Index(e.text, a)] + e.text[Index(e.text, e.cursor)..]
      && r.cursor == a
    ensures Index(e.text, e.cursor) < Index(e.text, a) ==>
      && Index(e.text, e.cursor) < |e.text|
      && r.text == e.text[..Index(e.text, e.cursor) + 1] + e.text[Min(Index(e.text, a) + 1, |e.text|)..]
      && r.cursor == e.cursor
    ensures a == e.cursor ==> r == e
  {
    IndexOrder(e.text, a, e.cursor);
    if a < e.cursor then CutBefore(e, a)
    else if e.cursor < a then CutAfter(e, a)
    else e
  }

  /** `delete_selection` with the anchor before the cursor: `replace_range(a..cursor, "")`. */
  function CutBefore(e: TextEditor, a: nat): (r: TextEditor)
    requires IsBoundary(e.text, e.cursor) && IsBoundary(e.text, a) && a < e.cursor
    ensures IsBoundary(r.text, r.cursor)
    ensures r == e.(text := r.text, cursor := r.cursor)
    ensures r.text == e.text[..Index(e.text, a)] + e.text[Index(e.text, e.cursor)..]
    ensures r.cursor == a
  {
    ReplaceRangeKeepsBefore(e.text, a, e.cursor, [], a);
    e.(text := ReplaceRange(e.text, a, e.cursor, []), cursor := a)
  }

  /**
   * `delete_selection` with the anchor after the cursor: keep the character
   * at the cursor and remove from its end to the end of the character at the
   * anchor, or to the end of the text when the anchor is at the end.
   */
  function CutAfter(e: TextEditor, a: nat): (r: TextEditor)
    requires IsBoundary(e.text, e.cursor) && IsBoundary(e.text, a) && e.cursor < a
    ensures IsBoundary(r.text, r.cursor)
    ensures r == e.(text := r.text)
    ensures Index(e.text, e.cursor) < |e.text|
    ensures r.text == e.text[..Index(e.text, e.cursor) + 1] + e.text[Min(Index(e.text, a) + 1, |e.text|)..]
  {
    e.(text := CutAfterText(e.text, e.cursor, a))
  }

  /** The text `CutAfter` leaves: `replace_range(start..end, "")` with `start` just past the cursor's character. */
  function CutAfterText(t: seq<char>, cursor: nat, a: nat): (r: seq<char>)
    requires IsBoundary(t, cursor) && IsBoundary(t, a) && cursor < a
    ensures IsBoundary(r, cursor) && Index(t, cursor) < |t|
    ensures r == t[..Index(t, cursor) + 1] + t[Min(Index(t, a) + 1, |t|)..]
  {
    BoundaryBounded(t, a);
    match CharAfter(t, cursor)
    case None => assert false; t
    case Some(c) =>
      CutAfterSpan(t, cursor, a, c);
      ReplaceRange(t, cursor + Utf8Len(c), CharEnd(t, a), [])
  }

  /** The range `CutAfter` removes: from the end of the character at the cursor to the end of the one at `a`. */
  lemma CutAfterSpan(t: seq<char>, cursor: nat, a: nat, c: char)
    requires IsBoundary(t, cursor) && IsBoundary(t, a) && cursor < a
    requires CharAfter(t, cursor) == Some(c)
    ensures cursor + Utf8Len(c) <= CharEnd(t, a)
    ensures var r := ReplaceRange(t, cursor + Utf8Len(c), CharEnd(t, a), []);
      && IsBoundary(r, cursor)
      && Index(t, cursor) < |t|
      && r == t[..Index(t, cursor) + 1] + t[Min(Index(t, a) + 1, |t|)..]
  {
    var after := CharAfter(t, cursor);
    assert after.value == c;
    var i := Index(t, cursor);
    var start, end := cursor + Utf8Len(c), CharEnd(t, a);
    assert Index(t, start) == i + 1;
    IndexOrder(t, cursor, a);
    IndexOrder(t, start, end);
    ReplaceRangeKeepsBefore(t, start, end, [], cursor);
  }

  /** `if let Some(a) = selection_start.take() { delete_selection(a) }`. */
  function TakeSelection(e: TextEditor): (r: TextEditor)
    requires Valid(e)
    ensures Valid(r) && r.anchor == None
    ensures e.anchor == None ==> r == e
    ensures e.anchor.Some? ==> r == DeleteSelection(e.(anchor := None), e.anchor.value)
  {
    match e.anchor
    case None => e
    case Some(a) => DeleteSelection(e.(anchor := None), a)
  }

  /**
   * `push_char`: delete the selection, insert `c` at the cursor and step the
   * cursor over it.
   */
  function PushChar(e: TextEditor, c: char): (r: TextEditor)
    requires Valid(e)
    ensures Valid(r) && r.anchor == None
    ensures r.cursor == TakeSelection(e).cursor + Utf8Len(c)
    ensures Index(r.text, r.cursor) == Index(TakeSelection(e).text, TakeSelection(e).cursor) + 1
    ensures r.text == TakeSelection(e).text[..Index(TakeSelection(e).text, TakeSelection(e).cursor)]
                      + [c] + TakeSelection(e).text[Index(TakeSelection(e).text, TakeSelection(e).cursor)..]
    ensures r == TakeSelection(e).(text := r.text, cursor := r.cursor)
  {
    assert ByteLen([c]) == Utf8Len(c) by {
      assert [c][1..] == [];
    }
    Insert(TakeSelection(e), [c])
  }

  /**
   * `push_str`: delete the selection, insert `s` at the cursor and move the
   * cursor past it.
   */
  function PushStr(e: TextEditor, s: seq<char>): (r: TextEditor)
    requires Valid(e)
    ensures Valid(r) && r.anchor == None
    ensures r.cursor == TakeSelection(e).cursor + ByteLen(s)
    ensures Index(r.text, r.cursor) == Index(TakeSelection(e).text, TakeSelection(e).cursor) + |s|
    ensures r.text == TakeSelection(e).text[..Index(TakeSelection(e).text, TakeSelection(e).cursor)]
                      + s + TakeSelection(e).text[Index(TakeSelection(e).text, TakeSelection(e).cursor)..]
    ensures r == TakeSelection(e).(text := r.text, cursor := r.cursor)
  {
    Insert(TakeSelection(e), s)
  }

  /** `String::insert_str` at the cursor followed by `cursor += s.len()`. */
  function Insert(d: TextEditor, s: seq<char>): (r: TextEditor)
    requires Valid(d) && d.anchor == None
    ensures Valid(r) && r.anchor == None
    ensures r.cursor == d.cursor + ByteLen(s)
    ensures Index(r.text, r.cursor) == Index(d.text, d.cursor) + |s|
    ensures r.text == d.text[..Index(d.text, d.cursor)] + s + d.text[Index(d.text, d.cursor)..]
    ensures r == d.(text := r.text, cursor := r.cursor)
  {
    var i := Index(d.text, d.cursor);
    var t := ReplaceRange(d.text, d.cursor, d.cursor, s);
    SpliceOffsets(d.text[..i], s, d.text[i..]);
    BoundaryOfOffset(t, i + |s|);
    d.(text := t, cursor := d.cursor + ByteLen(s))
  }

  /** `String::remove(b)`: drop the character starting at byte `b` (Rust panics past the end). */
  function Remove(s: seq<char>, b: nat): (r: seq<char>)
    requires IsBoundary(s, b) && b < ByteLen(s)
    ensures Index(s, b) < |s|
    ensures r == s[..Index(s, b)] + s[Index(s, b) + 1..]
    ensures IsBoundary(r, b) && Index(r, b) == Index(s, b)
  {
    var c := CharAfter(s, b).value;
    ReplaceRangeKeepsBefore(s, b, b + Utf8Len(c), [], b);
    var r := ReplaceRange(s, b, b + Utf8Len(c), []);
    PrefixOffset(s[..Index(s, b)], s[Index(s, b) + 1..]);
    BoundaryOfOffset(r, Index(s, b));
    BoundaryOfOffset(s, Index(s, b));
    r
  }

  /**
   * `delete_back`: with a selection, delete it; otherwise remove the
   * character before the cursor, if any, and step back over it.
   */
  function DeleteBack(e: TextEditor): (r: TextEditor)
    requires Valid(e)
    ensures Valid(r) && r.anchor == None
    ensures e.anchor.Some? ==> r == DeleteSelection(e.(anchor := None), e.anchor.value)
    ensures e.anchor == None ==> r == DeleteBefore(e)
  {
    match e.anchor
    case Some(a) => DeleteSelection(e.(anchor := None), a)
    case None => DeleteBefore(e)
  }

  /**
   * `delete_back` without a selection: remove the character before the
   * cursor and step back over it; at the start of the text, nothing.
   */
  function DeleteBefore(e: TextEditor): (r: TextEditor)
    requires Valid(e) && e.anchor == None
    ensures Valid(r) && r.anchor == None
    ensures Index(e.text, e.cursor) == 0 ==> r == e
    ensures Index(e.text, e.cursor) > 0 ==>
      && r.text == e.text[..Index(e.text, e.cursor) - 1] + e.text[Index(e.text, e.cursor)..]
      && r.cursor == e.cursor - Utf8Len(e.text[Index(e.text, e.cursor) - 1])
      && Index(r.text, r.cursor) == Index(e.text, e.cursor) - 1
      && r == e.(text := r.text, cursor := r.cursor)
  {
    BoundaryEnds(e.text);
    match CharBefore(e.text, e.cursor)
    case None => e
    case Some(c) => StepBackOver(e, c)
  }

  /** `remove` of the character `c` before the cursor, and `cursor -= c.len_utf8()`. */
  function StepBackOver(e: TextEditor, c: char): (r: TextEditor)
    requires Valid(e) && e.anchor == None && CharBefore(e.text, e.cursor) == Some(c)
    ensures Valid(r) && r.anchor == None
    ensures 0 < Index(e.text, e.cursor) && c == e.text[Index(e.text, e.cursor) - 1]
    ensures r.text == e.text[..Index(e.text, e.cursor) - 1] + e.text[Index(e.text, e.cursor)..]
    ensures r.cursor == e.cursor - Utf8Len(c)
    ensures Index(r.text, r.cursor) == Index(e.text, e.cursor) - 1
    ensures r == e.(text := r.text, cursor := r.cursor)
  {
    RemoveBefore(e.text, e.cursor, c);
    var b: nat := e.cursor - Utf8Len(c);
    e.(text := Remove(e.text, b), cursor := b)
  }

  /** Removing the character before boundary `b` removes character `Index(s, b) - 1`. */
  lemma RemoveBefore(s: seq<char>, b: nat, c: char)
    requires IsBoundary(s, b) && CharBefore(s, b) == Some(c)
    ensures 0 < Index(s, b) && c == s[Index(s, b) - 1]
    ensures Utf8Len(c) <= b && IsBoundary(s, b - Utf8Len(c)) && b - Utf8Len(c) < ByteLen(s)
    ensures var r := Remove(s, b - Utf8Len(c));
      && r == s[..Index(s, b) - 1] + s[Index(s, b)..]
      && IsBoundary(r, b - Utf8Len(c))
      && Index(r, b - Utf8Len(c)) == Index(s, b) - 1
  {
    var before := CharBefore(s, b);
    assert before.value == c;
    var p: nat := b - Utf8Len(c);
    var k := Index(s, b);
    assert Index(s, p) == k - 1;
    BoundaryBounded(s, b);
    var r := Remove(s, p);
    assert r == s[..k - 1] + s[k..];
  }

  /**
   * `delete_forward`: with a selection, delete it; otherwise remove the
   * character at the cursor, if any, leaving the cursor where it is.
   */
  function DeleteForward(e: TextEditor): (r: TextEditor)
    requires Valid(e)
    ensures Valid(r) && r.anchor == None
    ensures e.anchor.Some? ==> r == DeleteSelection(e.(anchor := None), e.anchor.value)
    ensures e.anchor == None && Index(e.text, e.cursor) == |e.text| ==> r == e
    ensures e.anchor == None && Index(e.text, e.cursor) < |e.text| ==>
      && r.text == e.text[..Index(e.text, e.cursor)] + e.text[Index(e.text, e.cursor) + 1..]
      && Index(r.text, r.cursor) == Index(e.text, e.cursor)
      && r == e.(text := r.text)
  {
    match e.anchor
    case Some(a) => DeleteSelection(e.(anchor := None), a)
    case None =>
      if CharAfter(e.text, e.cursor).Some? then
        e.(text := Remove(e.text, e.cursor))
      else
        e
  }

  /** `clear`: back to the state of `New`. */
  function Clear(e: TextEditor): (r: TextEditor)
    ensures r.text == [] && r.cursor == 0 && r.anchor == None
    ensures r.lineStarts == [] && r.cursorLine == 0 && r.column == 0 && r.scroll == 0
  {
    New()
  }

  /** `select_all`: anchor at the start, cursor at the end. */
  function SelectAll(e: TextEditor): (r: TextEditor)
    requires Valid(e)
    ensures Valid(r)
    ensures r.anchor == Some(0) && r.cursor == ByteLen(e.text)
    ensures r == e.(anchor := r.anchor, cursor := r.cursor)
  {
    BoundaryEnds(e.text);
    e.(anchor := Some(0), cursor := ByteLen(e.text))
  }

  /** Where the `jump_to_line` walk stopped: character index, display column, bytes walked. */
  datatype WalkEnd = WalkEnd(index: nat, column: nat, offset: nat)

  /**
   * The loop of `jump_to_line`, from character `k` with `column` cells and
   * `offset` bytes walked so far: stop once the column reaches `target`, at
   * the end of the text, or before a `'\n'`; otherwise step over one
   * character.
   */
  function Walk(w: WidthFn, t: seq<char>, k: nat, column: nat, offset: nat, target: nat): (r: WalkEnd)
    requires k <= |t|
    ensures k <= r.index <= |t|
    decreases |t| - k
  {
    if column >= target then WalkEnd(k, column, offset)
    else if k == |t| then WalkEnd(k, column, offset)
    else if t[k] == '\n' then WalkEnd(k, column, offset)
    else Walk(w, t, k + 1, column + CellWidth(w, t[k]), offset + Utf8Len(t[k]), target)
  }

  /** The walk's column and byte count are those of the characters it passed. */
  lemma {:induction false} WalkCounts(w: WidthFn, t: seq<char>, k: nat, column: nat, offset: nat, target: nat)
    requires k <= |t|
    ensures var r := Walk(w, t, k, column, offset, target);
      && r.column == column + SumWidth(w, t[k..r.index])
      && r.offset + Offset(t, k) == offset + Offset(t, r.index)
    decreases |t| - k
  {
    if column < target && k < |t| && t[k] != '\n' {
      var c := t[k];
      WalkCounts(w, t, k + 1, column + CellWidth(w, c), offset + Utf8Len(c), target);
      var r := Walk(w, t, k, column, offset, target);
      OffsetStep(t, k);
      SumWidthCons(w, t, k, r.index);
    } else {
      assert t[k..k] == [];
    }
  }

  /** Width of a run seen from its first character. */
  lemma SumWidthCons(w: WidthFn, t: seq<char>, k: nat, j: nat)
    requires k < j <= |t|
    ensures SumWidth(w, t[k..j]) == CellWidth(w, t[k]) + SumWidth(w, t[k + 1..j])
  {
    assert t[k..j] == [t[k]] + t[k + 1..j];
    SumWidthConcat(w, [t[k]], t[k + 1..j]);
    assert [t[k]][..0] == [];
  }

  /** The walk passes no newline, and stops at the target column, the end, or a newline. */
  lemma {:induction false} WalkStops(w: WidthFn, t: seq<char>, k: nat, column: nat, offset: nat, target: nat)
    requires k <= |t|
    ensures var r := Walk(w, t, k, column, offset, target);
      && '\n' !in t[k..r.index]
      && (r.column >= target || r.index == |t| || t[r.index] == '\n')
    decreases |t| - k
  {
    if column < target && k < |t| && t[k] != '\n' {
      WalkStops(w, t, k + 1, column + CellWidth(w, t[k]), offset + Utf8Len(t[k]), target);
      var r := Walk(w, t, k, column, offset, target);
      assert t[k..r.index] == [t[k]] + t[k + 1..r.index];
    } else {
      assert t[k..k] == [];
    }
  }

  /** The walk never steps over a character once the target column is reached. */
  lemma {:induction false} WalkNotPast(w: WidthFn, t: seq<char>, k: nat, column: nat, offset: nat, target: nat)
    requires k <= |t|
    ensures var r := Walk(w, t, k, column, offset, target);
      forall j :: k <= j < r.index ==> column + SumWidth(w, t[k..j]) < target
    decreases |t| - k
  {
    if column < target && k < |t| && t[k] != '\n' {
      WalkNotPast(w, t, k + 1, column + CellWidth(w, t[k]), offset + Utf8Len(t[k]), target);
      var r := Walk(w, t, k, column, offset, target);
      forall j | k < j < r.index
        ensures column + SumWidth(w, t[k..j]) < target
      {
        SumWidthCons(w, t, k, j);
      }
      assert t[k..k] == [];
    }
  }

  /**
   * `jump_to_line(i)`: go to the start of cached line `i` and walk right
   * towards the saved column. Panics (`None`) when `i` is past the cached
   * lines or the cached start is not a boundary of the current text.
   */
  function JumpToLine(w: WidthFn, e: TextEditor, i: nat): (r: Option<TextEditor>)
    ensures r.Some? <==> i < |e.lineStarts| && IsBoundary(e.text, e.lineStarts[i])
    ensures r.Some? ==> IsBoundary(r.value.text, r.value.cursor)
    ensures r.Some? ==> r.value == e.(cursorLine := i, cursor := r.value.cursor, column := r.value.column)
  {
    if i >= |e.lineStarts| then None
    else
      var b := e.lineStarts[i];
      if !IsBoundary(e.text, b) then None
      else
        var s := Walk(w, e.text, Index(e.text, b), 0, 0, e.column);
        WalkCounts(w, e.text, Index(e.text, b), 0, 0, e.column);
        BoundaryOfOffset(e.text, s.index);
        Some(e.(cursorLine := i, cursor := b + s.offset, column := s.column))
  }

  /** The anchor update at the top of `move_cursor`. */
  function ShiftAnchor(e: TextEditor, shift: bool): TextEditor {
    if shift then
      if e.anchor.None? then e.(anchor := Some(e.cursor)) else e
    else
      e.(anchor := None)
  }

  /** The cursor update of `move_cursor`'s `match`, after the anchor update. */
  function Moved(w: WidthFn, e: TextEditor, m: CursorMove): (r: Option<TextEditor>)
    requires IsBoundary(e.text, e.cursor)
    ensures r.Some? ==> IsBoundary(r.value.text, r.value.cursor)
    ensures r.Some? ==> r.value == e.(cursor := r.value.cursor, cursorLine := r.value.cursorLine, column := r.value.column)
    ensures r.None? ==> m == Up || m == Down
    ensures r.Some? && (m in {Forward, Back, Start, End} || (m == Up && e.cursorLine == 0)
                     || (m == Down && e.cursorLine == |e.lineStarts| - 1)) ==>
      r.value.cursorLine == e.cursorLine && r.value.column == e.column
    ensures r.Some? && m == Start ==> r.value.cursor == 0
    ensures r.Some? && m == End ==> r.value.cursor == ByteLen(e.text)
  {
    var t := e.text;
    BoundaryEnds(t);
    match m
    case Forward =>
      Some(match CharAfter(t, e.cursor) case Some(c) => e.(cursor := e.cursor + Utf8Len(c)) case None => e)
    case Back =>
      Some(match CharBefore(t, e.cursor) case Some(c) => e.(cursor := e.cursor - Utf8Len(c)) case None => e)
    case Up =>
      if e.cursorLine == 0 then Some(e.(cursor := 0)) else JumpToLine(w, e, e.cursorLine - 1)
    case Down =>
      if |e.lineStarts| == 0 then None  // `len() - 1` underflows
      else if e.cursorLine == |e.lineStarts| - 1 then Some(e.(cursor := ByteLen(t)))
      else JumpToLine(w, e, e.cursorLine + 1)
    case Start => Some(e.(cursor := 0))
    case End => Some(e.(cursor := ByteLen(t)))
  }

  /**
   * `move_cursor(m, shift)`. A plain move drops the anchor; a shifted move
   * plants it at the old cursor unless one is already planted; a move that
   * lands on the anchor drops it.
   */
  function MoveCursor(w: WidthFn, e: TextEditor, m: CursorMove, shift: bool): (r: Option<TextEditor>)
    requires Valid(e)
    ensures r.None? ==> m == Up || m == Down
    ensures r.Some? ==> Valid(r.value)
    ensures r.Some? ==> r.value.text == e.text && r.value.lineStarts == e.lineStarts
                        && r.value.scroll == e.scroll && r.value.lineWidth == e.lineWidth
    ensures r.Some? && !shift ==> r.value.anchor == None
    ensures r.Some? && shift && e.anchor.None? ==>
      r.value.anchor == (if r.value.cursor == e.cursor then None else Some(e.cursor))
    ensures r.Some? && shift && e.anchor.Some? ==>
      r.value.anchor == (if r.value.cursor == e.anchor.value then None else e.anchor)
    ensures r.Some? && (m in {Forward, Back, Start, End} || (m == Up && e.cursorLine == 0)
                     || (m == Down && e.cursorLine == |e.lineStarts| - 1)) ==>
      r.value.cursorLine == e.cursorLine && r.value.column == e.column
    ensures r.Some? && m == Start ==> r.value.cursor == 0
    ensures r.Some? && m == End ==> r.value.cursor == ByteLen(e.text)
  {
    match Moved(w, ShiftAnchor(e, shift), m)
    case None => None
    case Some(e2) => Some(if e2.anchor == Some(e2.cursor) then e2.(anchor := None) else e2)
  }

  /** `input(key, modifiers)`: the editor's key bindings. */
  function Input(w: WidthFn, e: TextEditor, key: Keys.KeyCode, mods: Keys.Modifiers): (r: Option<TextEditor>)
    requires Valid(e)
    ensures r.Some? ==> Valid(r.value)
    ensures r.None? ==> key == Keys.Up || key == Keys.Down
  {
    match key
    case Right => MoveCursor(w, e, Forward, mods.shift)
    case Left => MoveCursor(w, e, Back, mods.shift)
    case Up => MoveCursor(w, e, Up, mods.shift)
    case Down => MoveCursor(w, e, Down, mods.shift)
    case Home => MoveCursor(w, e, Start, mods.shift)
    case End => MoveCursor(w, e, End, mods.shift)
    case Enter => Some(PushChar(e, '\n'))
    case Backspace => Some(DeleteBack(e))
    case Delete => Some(DeleteForward(e))
    case Char(c) => if c == 'a' && mods.ctrl then Some(SelectAll(e)) else Some(PushChar(e, c))
    case _ => Some(e)
  }

  /** The terminal area the editor is drawn into (`Rect`, both sides `u16`). */
  datatype Area = Area(width: nat, height: nat)

  /** What `render` leaves behind: the updated editor and the rows it drew, top to bottom. */
  datatype Frame = Frame(editor: TextEditor, drawn: seq<Row>)

  /**
   * The cursor's line and column as the render loop records them: only when
   * the loop meets the cursor, at a character start or at the end of the
   * text; otherwise the zeros they were reset to.
   */
  function CursorPlace(w: WidthFn, t: seq<char>, width: nat, cursor: nat): (nat, nat) {
    if IsBoundary(t, cursor) then Locate(w, t, width, cursor) else (0, 0)
  }

  /**
   * `render(area, buf)`: lay the text out at the area's width, record the
   * line starts and the cursor's line and column, scroll minimally to the
   * cursor's line and draw `area.height` rows from the first displayed line.
   */
  function Render(w: WidthFn, e: TextEditor, area: Area): (f: Frame)
    ensures f.editor.text == e.text && f.editor.cursor == e.cursor && f.editor.anchor == e.anchor
    ensures f.editor.lineWidth == area.width
    ensures f.editor.lineStarts == LineStarts(w, e.text, area.width)
    ensures IsBoundary(e.text, e.cursor) ==>
      (f.editor.cursorLine, f.editor.column) == Locate(w, e.text, area.width, e.cursor)
    ensures !IsBoundary(e.text, e.cursor) ==> f.editor.cursorLine == 0 && f.editor.column == 0
    ensures f.editor.scroll == Scroll(e.scroll, f.editor.cursorLine, area.height)
    ensures f.editor.scroll <= f.editor.cursorLine <= f.editor.scroll + Max(area.height, 1) - 1
    ensures f.drawn == Visible(Rows(w, e.text, area.width, e.cursor, e.anchor), f.editor.scroll, area.height)
    ensures |f.drawn| <= area.height
  {
    var t := e.text;
    var line := CursorPlace(w, t, area.width, e.cursor).0;
    var column := CursorPlace(w, t, area.width, e.cursor).1;
    var scroll := Scroll(e.scroll, line, area.height);
    var rows := Rows(w, t, area.width, e.cursor, e.anchor);
    var e' := e.(lineWidth := area.width, lineStarts := LineStarts(w, t, area.width),
                 cursorLine := line, column := column, scroll := scroll);
    Frame(e', Visible(rows, scroll, area.height))
  }
}

=== FILE: editor_props.dfy ===
/**
 * Properties of the text editor that relate several of its operations:
 * single-character steps and their inverses, the vertical moves, the
 * agreement between what `render` highlights and what a delete removes, and
 * what a render guarantees about the cursor.
 */
module EditorProps {
  import opened Wrappers
  import opened Utf8
  import opened Layout
  import opened Styling
  import opened Editor
  import Keys

  /** `move_cursor` places the cursor where its `match` does; only the anchor is fixed up afterwards. */
  lemma MoveIsMoved(w: WidthFn, e: TextEditor, m: CursorMove, shift: bool)
    requires Valid(e)
    ensures var r, d := MoveCursor(w, e, m, shift), Moved(w, ShiftAnchor(e, shift), m);
      && r.Some? == d.Some?
      && (r.Some? ==> && r.value.cursor == d.value.cursor
                      && r.value.cursorLine == d.value.cursorLine
                      && r.value.column == d.value.column)
  {
  }

  /** The `Forward` arm of the match. */
  lemma ForwardMoved(w: WidthFn, e: TextEditor)
    requires IsBoundary(e.text, e.cursor)
    ensures var r := Moved(w, e, Forward);
      && r.Some?
      && (Index(e.text, e.cursor) < |e.text| ==>
            && r.value.cursor == e.cursor + Utf8Len(e.text[Index(e.text, e.cursor)])
            && Index(r.value.text, r.value.cursor) == Index(e.text, e.cursor) + 1)
      && (Index(e.text, e.cursor) == |e.text| ==> r.value.cursor == e.cursor)
  {
    BoundaryEnds(e.text);
    IndexOrder(e.text, e.cursor, ByteLen(e.text));
    BoundaryBounded(e.text, e.cursor);
    var _ := CharAfter(e.text, e.cursor);
  }

  /** The `Back` arm of the match. */
  lemma BackMoved(w: WidthFn, e: TextEditor)
    requires IsBoundary(e.text, e.cursor)
    ensures var r := Moved(w, e, Back);
      && r.Some?
      && (Index(e.text, e.cursor) > 0 ==>
            && r.value.cursor == e.cursor - Utf8Len(e.text[Index(e.text, e.cursor) - 1])
            && Index(r.value.text, r.value.cursor) == Index(e.text, e.cursor) - 1)
      && (Index(e.text, e.cursor) == 0 ==> r.value.cursor == e.cursor)
  {
    BoundaryEnds(e.text);
    IndexOrder(e.text, 0, e.cursor);
    var _ := CharBefore(e.text, e.cursor);
  }

  /** Forward steps over exactly the character at the cursor, and stays put at the end. */
  lemma ForwardStep(w: WidthFn, e: TextEditor, shift: bool)
    requires Valid(e)
    ensures var r := MoveCursor(w, e, Forward, shift);
      && r.Some?
      && (Index(e.text, e.cursor) < |e.text| ==>
            && r.value.cursor == e.cursor + Utf8Len(e.text[Index(e.text, e.cursor)])
            && Index(r.value.text, r.value.cursor) == Index(e.text, e.cursor) + 1)
      && (Index(e.text, e.cursor) == |e.text| ==> r.value.cursor == e.cursor)
  {
    MoveIsMoved(w, e, Forward, shift);
    ForwardMoved(w, ShiftAnchor(e, shift));
  }

  /** Back steps over exactly the character before the cursor, and stays put at the start. */
  lemma BackStep(w: WidthFn, e: TextEditor, shift: bool)
    requires Valid(e)
    ensures var r := MoveCursor(w, e, Back, shift);
      && r.Some?
      && (Index(e.text, e.cursor) > 0 ==>
            && r.value.cursor == e.cursor - Utf8Len(e.text[Index(e.text, e.cursor) - 1])
            && Index(r.value.text, r.value.cursor) == Index(e.text, e.cursor) - 1)
      && (Index(e.text, e.cursor) == 0 ==> r.value.cursor == e.cursor)
  {
    MoveIsMoved(w, e, Back, shift);
    BackMoved(w, ShiftAnchor(e, shift));
  }

  /** Forward then Back returns to the same offset, unless Forward was at the end. */
  lemma ForwardThenBack(w: WidthFn, e: TextEditor, shift: bool, shift': bool)
    requires Valid(e) && Index(e.text, e.cursor) < |e.text|
    ensures var f := MoveCursor(w, e, Forward, shift);
      && f.Some?
      && MoveCursor(w, f.value, Back, shift').Some?
      && MoveCursor(w, f.value, Back, shift').value.cursor == e.cursor
  {
    ForwardStep(w, e, shift);
    var f := MoveCursor(w, e, Forward, shift).value;
    BackStep(w, f, shift');
  }

  /** Back then Forward returns to the same offset, unless Back was at the start. */
  lemma BackThenForward(w: WidthFn, e: TextEditor, shift: bool, shift': bool)
    requires Valid(e) && Index(e.text, e.cursor) > 0
    ensures var b := MoveCursor(w, e, Back, shift);
      && b.Some?
      && MoveCursor(w, b.value, Forward, shift').Some?
      && MoveCursor(w, b.value, Forward, shift').value.cursor == e.cursor
  {
    BackStep(w, e, shift);
    var b := MoveCursor(w, e, Back, shift).value;
    ForwardStep(w, b, shift');
  }

  /** Up on the first line goes to the start of the text. */
  lemma UpFromFirstLine(w: WidthFn, e: TextEditor, shift: bool)
    requires Valid(e) && e.cursorLine == 0
    ensures MoveCursor(w, e, Up, shift).Some? && MoveCursor(w, e, Up, shift).value.cursor == 0
  {
  }

  /** Down on the last cached line goes to the end of the text. */
  lemma DownFromLastLine(w: WidthFn, e: TextEditor, shift: bool)
    requires Valid(e) && |e.lineStarts| >= 1 && e.cursorLine == |e.lineStarts| - 1
    ensures MoveCursor(w, e, Down, shift).Some?
    ensures MoveCursor(w, e, Down, shift).value.cursor == ByteLen(e.text)
  {
  }

  /** Before any render there are no cached lines, and Down underflows `len() - 1`. */
  lemma DownBeforeRender(w: WidthFn, e: TextEditor, shift: bool)
    requires Valid(e) && |e.lineStarts| == 0
    ensures MoveCursor(w, e, Down, shift) == None
  {
  }

  /** `jump_to_line(i)` lands where the walk from line `i`'s start stops. */
  lemma JumpLands(w: WidthFn, e: TextEditor, i: nat)
    requires i < |e.lineStarts| && IsBoundary(e.text, e.lineStarts[i])
    ensures var s := Walk(w, e.text, Index(e.text, e.lineStarts[i]), 0, 0, e.column);
      && JumpToLine(w, e, i).Some?
      && JumpToLine(w, e, i).value.cursorLine == i
      && JumpToLine(w, e, i).value.cursor == Offset(e.text, s.index)
      && JumpToLine(w, e, i).value.column == s.column
  {
    WalkCounts(w, e.text, Index(e.text, e.lineStarts[i]), 0, 0, e.column);
  }

  /** A vertical move away from the first or last line is a jump to the adjacent line. */
  lemma VerticalIsJump(w: WidthFn, e: TextEditor, m: CursorMove, shift: bool, line: nat)
    requires Valid(e)
    requires || (m == Up && e.cursorLine > 0 && line == e.cursorLine - 1)
             || (m == Down && e.cursorLine + 1 < |e.lineStarts| && line == e.cursorLine + 1)
    requires line < |e.lineStarts| && IsBoundary(e.text, e.lineStarts[line])
    ensures var r, j := MoveCursor(w, e, m, shift), JumpToLine(w, ShiftAnchor(e, shift), line);
      && r.Some? && j.Some?
      && r.value.cursor == j.value.cursor
      && r.value.column == j.value.column
      && r.value.cursorLine == j.value.cursorLine
  {
    MoveIsMoved(w, e, m, shift);
  }

  /**
   * Up (from a line after the first) and Down (from a line before the last)
   * go to the start of the adjacent cached line and walk right: over no
   * newline, never past the saved column, stopping at the saved column, a
   * newline or the end. The new column is the width of what was walked.
   */
  lemma VerticalMove(w: WidthFn, e: TextEditor, m: CursorMove, shift: bool, line: nat)
    requires Valid(e)
    requires || (m == Up && e.cursorLine > 0 && line == e.cursorLine - 1)
             || (m == Down && e.cursorLine + 1 < |e.lineStarts| && line == e.cursorLine + 1)
    requires line < |e.lineStarts| && IsBoundary(e.text, e.lineStarts[line])
    ensures var r := MoveCursor(w, e, m, shift);
      var t, k0 := e.text, Index(e.text, e.lineStarts[line]);
      && r.Some?
      && r.value.cursorLine == line
      && k0 <= Index(t, r.value.cursor)
      && '\n' !in t[k0..Index(t, r.value.cursor)]
      && r.value.column == SumWidth(w, t[k0..Index(t, r.value.cursor)])
      && (r.value.column >= e.column || Index(t, r.value.cursor) == |t| || t[Index(t, r.value.cursor)] == '\n')
      && (forall j :: k0 <= j < Index(t, r.value.cursor) ==> SumWidth(w, t[k0..j]) < e.column)
  {
    var e1 := ShiftAnchor(e, shift);
    var t := e.text;
    var k0 := Index(t, e.lineStarts[line]);
    VerticalIsJump(w, e, m, shift, line);
    JumpLands(w, e1, line);
    var s := Walk(w, t, k0, 0, 0, e.column);
    WalkCounts(w, t, k0, 0, 0, e.column);
    WalkStops(w, t, k0, 0, 0, e.column);
    WalkNotPast(w, t, k0, 0, 0, e.column);
    BoundaryOfOffset(t, s.index);
  }

  /** After a render, no cursor move panics. */
  lemma MovesAfterRender(w: WidthFn, e: TextEditor, area: Area, m: CursorMove, shift: bool)
    requires Valid(e)
    ensures Valid(Render(w, e, area).editor)
    ensures MoveCursor(w, Render(w, e, area).editor, m, shift).Some?
  {
    var e' := Render(w, e, area).editor;
    LocateIsLastLineStart(w, e.text, area.width, e.cursor);
    assert e'.cursorLine < |e'.lineStarts|;
    assert AllBoundaries(e.text, e'.lineStarts);
  }

  /**
   * After a render, no key panics the editor: the only keys that can
   * (Up and Down, through `line_start_indexes`) have the cache they need.
   */
  lemma InputAfterRender(w: WidthFn, e: TextEditor, area: Area, key: Keys.KeyCode, mods: Keys.Modifiers)
    requires Valid(e)
    ensures Valid(Render(w, e, area).editor)
    ensures Input(w, Render(w, e, area).editor, key, mods).Some?
  {
    MovesAfterRender(w, e, area, Up, mods.shift);
    MovesAfterRender(w, e, area, Down, mods.shift);
  }

  /**
   * With at least one row of area, the rows drawn contain the cursor cell,
   * exactly once: in the row of the cursor's line.
   */
  lemma CursorDrawn(w: WidthFn, e: TextEditor, area: Area)
    requires Valid(e) && area.height >= 1
    ensures var f := Render(w, e, area);
      && f.editor.scroll <= f.editor.cursorLine
      && CursorOnlyIn(f.drawn, f.editor.cursorLine - f.editor.scroll, true)
  {
    var f := Render(w, e, area);
    CursorRow(w, e.text, area.width, e.cursor, e.anchor);
    CursorInWindow(Rows(w, e.text, area.width, e.cursor, e.anchor), f.editor.cursorLine, f.editor.scroll, area.height);
  }

  /** A window of rows that contains the cursor's row shows the cursor cell there and nowhere else. */
  lemma CursorInWindow(rows: seq<Row>, line: nat, scroll: nat, height: nat)
    requires CursorOnlyIn(rows, line, true)
    requires scroll <= line < scroll + height
    ensures CursorOnlyIn(Visible(rows, scroll, height), line - scroll, true)
  {
    var d := Visible(rows, scroll, height);
    assert forall j :: 0 <= j < |d| ==> d[j] == rows[scroll + j];
  }

  /** A render leaves the scroll alone when the cursor's line is already on screen. */
  lemma RenderKeepsScroll(w: WidthFn, e: TextEditor, area: Area)
    requires Valid(e)
    requires var line := Locate(w, e.text, area.width, e.cursor).0;
      e.scroll <= line <= e.scroll + Max(area.height, 1) - 1
    ensures Render(w, e, area).editor.scroll == e.scroll
  {
  }

  /** `push_char(c)` is `push_str` of the one-character string. */
  lemma PushCharIsPushStr(e: TextEditor, c: char)
    requires Valid(e)
    ensures PushChar(e, c) == PushStr(e, [c])
  {
    assert ByteLen([c]) == Utf8Len(c) by {
      assert [c][1..] == [];
    }
  }

  /** Backspace right after typing a character, with nothing selected, undoes it. */
  lemma TypeThenBackspace(e: TextEditor, c: char)
    requires Valid(e) && e.anchor == None
    ensures DeleteBack(PushChar(e, c)) == e
  {
    var p := PushChar(e, c);
    var i := Index(e.text, e.cursor);
    assert p.text[i] == c;
    assert p.text[..i] + p.text[i + 1..] == e.text;
  }

  /** Typing a character, stepping back over it and deleting forward undoes the typing. */
  lemma TypeLeftDelete(w: WidthFn, e: TextEditor, c: char)
    requires Valid(e) && e.anchor == None
    ensures MoveCursor(w, PushChar(e, c), Back, false).Some?
    ensures DeleteForward(MoveCursor(w, PushChar(e, c), Back, false).value) == e
  {
    var p := PushChar(e, c);
    var i := Index(e.text, e.cursor);
    BackStep(w, p, false);
    var b := MoveCursor(w, p, Back, false).value;
    assert p.text[i] == c;
    assert p.text[..i] + p.text[i + 1..] == e.text;
    BoundaryOfOffset(e.text, i);
    OffsetPrefix(e.text[..i], [c] + e.text[i..], i);
  }

  /** Select all then typing replaces the whole text by the typed character. */
  lemma SelectAllThenType(e: TextEditor, c: char)
    requires Valid(e)
    ensures PushChar(SelectAll(e), c).text == [c]
    ensures PushChar(SelectAll(e), c).cursor == Utf8Len(c)
  {
    var s := SelectAll(e);
    BoundaryEnds(e.text);
    IndexOrder(e.text, 0, ByteLen(e.text));
    var d := TakeSelection(s);
    if |e.text| > 0 {
      assert d.text == [];
    }
    BoundaryEnds(d.text);
  }

  /** After select all, every character is drawn as selected. */
  lemma SelectAllHighlightsAll(e: TextEditor)
    requires Valid(e)
    ensures var s := SelectAll(e);
      forall k :: 0 <= k < |e.text| ==> StyleAt(s.cursor, s.anchor, Offset(e.text, k)) == Selected
  {
    var t := e.text;
    forall k | 0 <= k < |t|
      ensures StyleAt(ByteLen(t), Some(0), Offset(t, k)) == Selected
    {
      OffsetStrict(t, k, |t|);
      OffsetEnd(t);
    }
  }

  /** The characters `render` does not draw as selected, in order. */
  function Unhighlighted(t: seq<char>, cursor: nat, anchor: Option<nat>, k: nat): seq<char>
    requires k <= |t|
  {
    if k == 0 then []
    else
      Unhighlighted(t, cursor, anchor, k - 1)
      + (if StyleAt(cursor, anchor, Offset(t, k - 1)) == Selected then [] else [t[k - 1]])
  }

  /** When the selected characters are those with index in `[p, q)`, the rest is the text without that range. */
  lemma {:induction false} UnhighlightedWindow(t: seq<char>, cursor: nat, anchor: Option<nat>, p: nat, q: nat, k: nat)
    requires p <= q <= |t| && k <= |t|
    requires forall i :: 0 <= i < |t| ==> (StyleAt(cursor, anchor, Offset(t, i)) == Selected <==> p <= i < q)
    ensures Unhighlighted(t, cursor, anchor, k)
         == if k <= p then t[..k] else if k <= q then t[..p] else t[..p] + t[q..k]
  {
    if k > 0 {
      UnhighlightedWindow(t, cursor, anchor, p, q, k - 1);
      if k <= p {
        assert t[..k] == t[..k - 1] + [t[k - 1]];
      } else if k > q {
        assert t[q..k] == t[q..k - 1] + [t[k - 1]];
        if k - 1 == q {
          assert t[q..k - 1] == [];
        }
      }
    }
  }

  /** Which characters `render` styles as selected, by character index. */
  lemma SelectedChars(t: seq<char>, cursor: nat, a: nat, i: nat)
    requires IsBoundary(t, cursor) && IsBoundary(t, a) && i < |t|
    ensures var ci, ai := Index(t, cursor), Index(t, a);
      var selected := StyleAt(cursor, Some(a), Offset(t, i)) == Selected;
      selected <==> (ai < ci && ai <= i < ci) || (ci < ai && ci < i <= ai)
  {
    var b := Offset(t, i);
    BoundaryOfOffset(t, i);
    IndexOrder(t, b, cursor);
    IndexOrder(t, b, a);
  }

  /** The first character index of the selection, as deletion and highlighting both see it. */
  function SelLo(t: seq<char>, cursor: nat, a: nat): nat
    requires IsBoundary(t, cursor) && IsBoundary(t, a)
  {
    var ci, ai := Index(t, cursor), Index(t, a);
    if ai < ci then ai else if ci < ai then ci + 1 else ci
  }

  /** One past the last character index of the selection. */
  function SelHi(t: seq<char>, cursor: nat, a: nat): nat
    requires IsBoundary(t, cursor) && IsBoundary(t, a)
  {
    var ci, ai := Index(t, cursor), Index(t, a);
    if ai < ci then ci else if ci < ai then Min(ai + 1, |t|) else ci
  }

  /** `render` styles as selected exactly the characters in `[SelLo, SelHi)`. */
  lemma SelectedWindow(t: seq<char>, cursor: nat, a: nat)
    requires IsBoundary(t, cursor) && IsBoundary(t, a)
    ensures SelLo(t, cursor, a) <= SelHi(t, cursor, a) <= |t|
    ensures forall i :: 0 <= i < |t| ==>
      (StyleAt(cursor, Some(a), Offset(t, i)) == Selected <==> SelLo(t, cursor, a) <= i < SelHi(t, cursor, a))
  {
    var ci, ai := Index(t, cursor), Index(t, a);
    if ci < ai {
      BoundaryBounded(t, a);
      BoundaryEnds(t);
      IndexOrder(t, a, ByteLen(t));
    }
    forall i | 0 <= i < |t|
      ensures StyleAt(cursor, Some(a), Offset(t, i)) == Selected <==> SelLo(t, cursor, a) <= i < SelHi(t, cursor, a)
    {
      SelectedChars(t, cursor, a, i);
    }
  }

  /** Deleting the selection removes exactly the characters in `[SelLo, SelHi)`. */
  lemma DeletedWindow(e: TextEditor, a: nat)
    requires IsBoundary(e.text, e.cursor) && IsBoundary(e.text, a)
    ensures var t := e.text;
      DeleteSelection(e, a).text == t[..SelLo(t, e.cursor, a)] + t[SelHi(t, e.cursor, a)..]
  {
    var t := e.text;
    IndexOrder(t, a, e.cursor);
    var ci := Index(t, e.cursor);
    assert t[..ci] + t[ci..] == t;
  }

  lemma SliceToEnd(t: seq<char>, q: nat)
    requires q <= |t|
    ensures t[q..|t|] == t[q..]
  {
  }

  /** What `render` leaves unhighlighted is the text without the window `[SelLo, SelHi)`. */
  lemma UnhighlightedIsWindow(t: seq<char>, cursor: nat, a: nat)
    requires IsBoundary(t, cursor) && IsBoundary(t, a)
    ensures Unhighlighted(t, cursor, Some(a), |t|) == t[..SelLo(t, cursor, a)] + t[SelHi(t, cursor, a)..]
  {
    var p, q := SelLo(t, cursor, a), SelHi(t, cursor, a);
    SelectedWindow(t, cursor, a);
    UnhighlightedWindow(t, cursor, Some(a), p, q, |t|);
    if |t| <= p {
      assert t[..|t|] == t[..p] + t[q..];
    } else if |t| <= q {
      assert t[q..] == [];
    } else {
      SliceToEnd(t, q);
    }
  }

  /**
   * The characters `render` highlights are exactly the characters that
   * deleting the selection removes: what remains is the text minus every
   * character drawn as selected. This holds for both anchor orders, with the
   * asymmetric deletion of an anchor after the cursor.
   */
  lemma HighlightIsDeletion(e: TextEditor)
    requires Valid(e) && e.anchor.Some?
    ensures TakeSelection(e).text == Unhighlighted(e.text, e.cursor, e.anchor, |e.text|)
  {
    var a := e.anchor.value;
    assert TakeSelection(e) == DeleteSelection(e.(anchor := None), a);
    DeletedWindow(e.(anchor := None), a);
    UnhighlightedIsWindow(e.text, e.cursor, a);
  }
}

=== FILE: keys.dfy ===
/**
 * The keyboard events the terminal delivers to the editor and the pages
 * (crossterm's `KeyCode`, `KeyModifiers` and `KeyEventKind`), reduced to the
 * keys the code distinguishes.
 */
module Keys {

  datatype KeyCode =
    | Backspace | Enter | Left | Right | Up | Down | Home | End
    | Tab | Delete | Esc
    | Char(c: char)
    | Other  // every key the code ignores (function keys, Insert, ...)

  /** The two modifiers the code inspects. */
  datatype Modifiers = Modifiers(shift: bool, ctrl: bool)

  datatype KeyEventKind = Press | Release | Repeat

  datatype KeyEvent = KeyEvent(code: KeyCode, modifiers: Modifiers, kind: KeyEventKind)
}

=== FILE: layout.dfy ===
/**
 * Greedy line wrapping of the editor's text (the first half of
 * `TextEditor::render` in src/editor.rs).
 *
 * The render loop walks the characters once. A character ends the current
 * visual line when it is `'\n'` or when adding its display width brings the
 * running width to at least the area width; the next line then starts at the
 * byte just after it. `ScanTo(.., k)` is the loop's state after `k`
 * characters, so every fact about the layout is a fact about a prefix scan.
 */
module Layout {
  import opened Wrappers
  import opened Utf8

  /**
   * `UnicodeWidthChar::width`: the terminal cells a character occupies, or
   * `None` for control characters. The Unicode width table is not modelled;
   * every operation that needs it takes it as a parameter.
   */
  type WidthFn = char -> Option<nat>

  /** `width(c).unwrap_or(1)`, the width the editor adds for `c`. */
  function CellWidth(w: WidthFn, c: char): nat {
    w(c).GetOr(1)
  }

  /** Total display width of a run of characters. */
  function SumWidth(w: WidthFn, s: seq<char>): nat {
    if |s| == 0 then 0 else SumWidth(w, s[..|s| - 1]) + CellWidth(w, s[|s| - 1])
  }

  lemma {:induction false} SumWidthConcat(w: WidthFn, a: seq<char>, b: seq<char>)
    ensures SumWidth(w, a + b) == SumWidth(w, a) + SumWidth(w, b)
  {
    if |b| == 0 {
      assert a + b == a;
    } else {
      assert (a + b)[..|a + b| - 1] == a + b[..|b| - 1];
      SumWidthConcat(w, a, b[..|b| - 1]);
    }
  }

  /** Why a visual line ended. */
  datatype LineEnd = NewLine | Wrapped | EndOfText

  /** One displayed row of the wrapped text: its characters, without the
      `'\n'` that ended it, and the reason it ended. */
  datatype VisualLine = VisualLine(text: seq<char>, end: LineEnd)

  /** The characters of the buffer that a visual line accounts for. */
  function Flatten(l: VisualLine): seq<char> {
    l.text + (if l.end == NewLine then ['\n'] else [])
  }

  /** Concatenate lines, putting back the newline that ended each hard line. */
  function Unsplit(ls: seq<VisualLine>): seq<char> {
    if |ls| == 0 then [] else Unsplit(ls[..|ls| - 1]) + Flatten(ls[|ls| - 1])
  }

  /** Does character `c` end a line whose running width is `run`? */
  predicate EndsLine(w: WidthFn, width: nat, run: nat, c: char) {
    c == '\n' || run + CellWidth(w, c) >= width
  }

  /**
   * State of the render loop: running width of the current line
   * (`line_width`), index of the current line (`line_index`), the byte
   * offsets where lines start (`line_start_indexes`), the lines closed so far
   * and the characters of the current line.
   */
  datatype Scan = Scan(
    lineWidth: nat,
    lineIndex: nat,
    starts: seq<nat>,
    done: seq<VisualLine>,
    current: seq<char>)

  /**
   * One iteration of the render loop: character `c`, whose successor starts
   * at byte `next`, either ends the current line or extends it.
   */
  function Step(w: WidthFn, width: nat, s: Scan, c: char, next: nat): Scan {
    if c == '\n' then
      Scan(0, s.lineIndex + 1, s.starts + [next], s.done + [VisualLine(s.current, NewLine)], [])
    else if s.lineWidth + CellWidth(w, c) >= width then
      Scan(0, s.lineIndex + 1, s.starts + [next], s.done + [VisualLine(s.current + [c], Wrapped)], [])
    else
      Scan(s.lineWidth + CellWidth(w, c), s.lineIndex, s.starts, s.done, s.current + [c])
  }

  /** The loop state after the first `k` characters of `t`. */
  function ScanTo(w: WidthFn, t: seq<char>, width: nat, k: nat): (s: Scan)
    requires k <= |t|
    ensures |s.starts| == s.lineIndex + 1 == |s.done| + 1
    ensures s.starts[0] == 0
    decreases k
  {
    if k == 0 then Scan(0, 0, [0], [], [])
    else Step(w, width, ScanTo(w, t, width, k - 1), t[k - 1], Offset(t, k))
  }

  /** The invariant of the loop state after `k` characters: facts about the current line. */
  predicate ScanInv(w: WidthFn, t: seq<char>, width: nat, k: nat, s: Scan)
    requires k <= |t|
    requires |s.starts| >= 1
  {
    && |s.current| <= k
    && s.current == t[k - |s.current|..k]
    && s.starts[|s.starts| - 1] == Offset(t, k - |s.current|)
    && s.lineWidth == SumWidth(w, s.current)
    && '\n' !in s.current
    && (|s.current| > 0 ==> s.lineWidth < width)
  }

  /** One loop iteration keeps the invariant. */
  lemma StepPreserves(w: WidthFn, t: seq<char>, width: nat, k: nat, p: Scan)
    requires 0 < k <= |t|
    requires |p.starts| >= 1
    requires ScanInv(w, t, width, k - 1, p)
    ensures var s := Step(w, width, p, t[k - 1], Offset(t, k));
      |s.starts| >= 1 && ScanInv(w, t, width, k, s)
  {
    var c := t[k - 1];
    var s := Step(w, width, p, c, Offset(t, k));
    if !EndsLine(w, width, p.lineWidth, c) {
      assert s.current == p.current + [c];
      assert t[k - |s.current|..k] == t[k - 1 - |p.current|..k - 1] + [c];
      assert (p.current + [c])[..|p.current|] == p.current;
    }
  }

  lemma {:induction false} ScanInvariant(w: WidthFn, t: seq<char>, width: nat, k: nat)
    requires k <= |t|
    ensures ScanInv(w, t, width, k, ScanTo(w, t, width, k))
  {
    if k > 0 {
      ScanInvariant(w, t, width, k - 1);
      StepPreserves(w, t, width, k, ScanTo(w, t, width, k - 1));
    }
  }

  /** The scan either closes a line at character `k` or extends the current one. */
  lemma ScanStep(w: WidthFn, t: seq<char>, width: nat, k: nat)
    requires k < |t|
    ensures var s, s' := ScanTo(w, t, width, k), ScanTo(w, t, width, k + 1);
      if EndsLine(w, width, s.lineWidth, t[k]) then
        && s'.starts == s.starts + [Offset(t, k + 1)]
        && s'.lineIndex == s.lineIndex + 1
        && s'.current == []
      else
        && s'.starts == s.starts
        && s'.lineIndex == s.lineIndex
        && s'.current == s.current + [t[k]]
  {
  }

  predicate Increasing(st: seq<nat>) {
    forall i, j :: 0 <= i < j < |st| ==> st[i] < st[j]
  }

  predicate AtMost(st: seq<nat>, b: nat) {
    forall i :: 0 <= i < |st| ==> st[i] <= b
  }

  predicate AllBoundaries(t: seq<char>, st: seq<nat>) {
    forall i :: 0 <= i < |st| ==> IsBoundary(t, st[i])
  }

  /** No line start lies beyond the scanned prefix. */
  lemma ScanStartsBelow(w: WidthFn, t: seq<char>, width: nat, k: nat)
    requires k <= |t|
    ensures AtMost(ScanTo(w, t, width, k).starts, Offset(t, k))
  {
    if k > 0 {
      ScanStartsBelow(w, t, width, k - 1);
      OffsetMonotone(t, k - 1, k);
    }
  }

  /** Line starts are strictly increasing. */
  lemma {:induction false} ScanStartsIncreasing(w: WidthFn, t: seq<char>, width: nat, k: nat)
    requires k <= |t|
    ensures Increasing(ScanTo(w, t, width, k).starts)
  {
    if k > 0 {
      ScanStartsIncreasing(w, t, width, k - 1);
      ScanStartsBelow(w, t, width, k - 1);
      OffsetStrict(t, k - 1, k);
    }
  }

  /** Every line start is a character boundary of the text. */
  lemma {:induction false} ScanStartsBoundaries(w: WidthFn, t: seq<char>, width: nat, k: nat)
    requires k <= |t|
    ensures AllBoundaries(t, ScanTo(w, t, width, k).starts)
  {
    if k == 0 {
      BoundaryEnds(t);
    } else {
      ScanStartsBoundaries(w, t, width, k - 1);
      ScanStep(w, t, width, k - 1);
      BoundaryOfOffset(t, k);
    }
  }

  /** One loop iteration accounts for exactly one more character. */
  lemma StepText(w: WidthFn, width: nat, p: Scan, c: char, next: nat)
    ensures var s := Step(w, width, p, c, next);
      Unsplit(s.done) + s.current == Unsplit(p.done) + p.current + [c]
  {
    var s := Step(w, width, p, c, next);
    if EndsLine(w, width, p.lineWidth, c) {
      assert s.done[..|s.done| - 1] == p.done;
      assert Flatten(s.done[|s.done| - 1]) == p.current + [c];
    }
  }

  /** The closed lines and the current line spell out the scanned prefix. */
  lemma {:induction false} ScanText(w: WidthFn, t: seq<char>, width: nat, k: nat)
    requires k <= |t|
    ensures Unsplit(ScanTo(w, t, width, k).done) + ScanTo(w, t, width, k).current == t[..k]
  {
    if k > 0 {
      ScanText(w, t, width, k - 1);
      StepText(w, width, ScanTo(w, t, width, k - 1), t[k - 1], Offset(t, k));
      assert t[..k] == t[..k - 1] + [t[k - 1]];
    }
  }

  /**
   * What the greedy wrap guarantees of a line: no newline inside it; a line
   * that ended on `'\n'` or at the end of the text is narrower than the area
   * (or empty); a wrapped line reached the area width with its last
   * character, and was narrower than the area before it.
   */
  predicate WellWrapped(w: WidthFn, width: nat, l: VisualLine) {
    && '\n' !in l.text
    && (l.end != Wrapped ==> |l.text| == 0 || SumWidth(w, l.text) < width)
    && (l.end == Wrapped ==>
          && |l.text| > 0
          && SumWidth(w, l.text) >= width
          && (|l.text| == 1 || SumWidth(w, l.text[..|l.text| - 1]) < width))
  }

  predicate AllWellWrapped(w: WidthFn, width: nat, ls: seq<VisualLine>) {
    forall i :: 0 <= i < |ls| ==> WellWrapped(w, width, ls[i])
  }

  /** A line closed by one loop iteration obeys the wrapping rule. */
  lemma StepLineWrapped(w: WidthFn, t: seq<char>, width: nat, k: nat, p: Scan)
    requires 0 < k <= |t|
    requires |p.starts| >= 1
    requires ScanInv(w, t, width, k - 1, p)
    requires EndsLine(w, width, p.lineWidth, t[k - 1])
    ensures var s := Step(w, width, p, t[k - 1], Offset(t, k));
      && s.done == p.done + [s.done[|p.done|]]
      && WellWrapped(w, width, s.done[|p.done|])
  {
    var c := t[k - 1];
    if c != '\n' {
      var text := p.current + [c];
      assert text[..|text| - 1] == p.current;
      assert '\n' !in text;
    }
  }

  lemma {:induction false} ScanLinesWrapped(w: WidthFn, t: seq<char>, width: nat, k: nat)
    requires k <= |t|
    ensures AllWellWrapped(w, width, ScanTo(w, t, width, k).done)
  {
    if k > 0 {
      ScanLinesWrapped(w, t, width, k - 1);
      ScanInvariant(w, t, width, k - 1);
      var p := ScanTo(w, t, width, k - 1);
      if EndsLine(w, width, p.lineWidth, t[k - 1]) {
        StepLineWrapped(w, t, width, k, p);
      }
    }
  }

  /** Scanning further only appends line starts, all beyond the earlier position. */
  lemma {:induction false} ScanGrows(w: WidthFn, t: seq<char>, width: nat, k: nat, k': nat)
    requires k <= k' <= |t|
    ensures var a, b := ScanTo(w, t, width, k).starts, ScanTo(w, t, width, k').starts;
      && |a| <= |b|
      && b[..|a|] == a
      && (forall i :: |a| <= i < |b| ==> b[i] > Offset(t, k))
  {
    if k < k' {
      ScanGrows(w, t, width, k, k' - 1);
      ScanStep(w, t, width, k' - 1);
      OffsetStrict(t, k, k');
    }
  }

  /** `line_start_indexes` as `render` leaves it for text `t` and area width `width`. */
  function LineStarts(w: WidthFn, t: seq<char>, width: nat): (starts: seq<nat>)
    ensures |starts| >= 1 && starts[0] == 0
    ensures Increasing(starts)
    ensures AllBoundaries(t, starts) && AtMost(starts, ByteLen(t))
  {
    ScanStartsIncreasing(w, t, width, |t|);
    ScanStartsBelow(w, t, width, |t|);
    ScanStartsBoundaries(w, t, width, |t|);
    OffsetEnd(t);
    ScanTo(w, t, width, |t|).starts
  }

  /** The visual lines of the wrapped text, the last one ending the text. */
  function VisualLines(w: WidthFn, t: seq<char>, width: nat): (ls: seq<VisualLine>)
    ensures |ls| == |LineStarts(w, t, width)|
    ensures ls[|ls| - 1].end == EndOfText
  {
    var s := ScanTo(w, t, width, |t|);
    s.done + [VisualLine(s.current, EndOfText)]
  }

  /**
   * A new line starts after character `j` exactly when `j` is a newline or
   * brings the running width of its line to the area width.
   */
  lemma LineStartAfter(w: WidthFn, t: seq<char>, width: nat, j: nat)
    requires j < |t|
    ensures Offset(t, j + 1) in LineStarts(w, t, width)
        <==> EndsLine(w, width, ScanTo(w, t, width, j).lineWidth, t[j])
  {
    var before, after := ScanTo(w, t, width, j).starts, ScanTo(w, t, width, j + 1).starts;
    var all := LineStarts(w, t, width);
    ScanGrows(w, t, width, j + 1, |t|);
    ScanStartsBelow(w, t, width, j);
    ScanStep(w, t, width, j);
    OffsetStrict(t, j, j + 1);
    assert all == after + all[|after|..];
    if !EndsLine(w, width, ScanTo(w, t, width, j).lineWidth, t[j]) {
      assert Offset(t, j + 1) !in before;
    }
  }

  /** Re-inserting the newlines of hard breaks and concatenating the lines gives back the text. */
  lemma Reconstruct(w: WidthFn, t: seq<char>, width: nat)
    ensures Unsplit(VisualLines(w, t, width)) == t
  {
    var s := ScanTo(w, t, width, |t|);
    ScanText(w, t, width, |t|);
    var ls := VisualLines(w, t, width);
    assert ls[..|ls| - 1] == s.done;
    assert t[..|t|] == t;
  }

  /** The loop closes lines only at a newline or a wrap, never at the end of the text. */
  lemma {:induction false} ScanClosesOpen(w: WidthFn, t: seq<char>, width: nat, k: nat)
    requires k <= |t|
    ensures forall i :: 0 <= i < |ScanTo(w, t, width, k).done| ==> ScanTo(w, t, width, k).done[i].end != EndOfText
  {
    if k > 0 {
      ScanClosesOpen(w, t, width, k - 1);
    }
  }

  /** Only the last visual line ends the text; every other one ends at a newline or a wrap. */
  lemma OnlyLastEndsText(w: WidthFn, t: seq<char>, width: nat)
    ensures var ls := VisualLines(w, t, width);
      forall i :: 0 <= i < |ls| ==> (ls[i].end == EndOfText <==> i == |ls| - 1)
  {
    var s := ScanTo(w, t, width, |t|);
    ScanClosesOpen(w, t, width, |t|);
    var ls := VisualLines(w, t, width);
    assert forall i :: 0 <= i < |s.done| ==> ls[i] == s.done[i];
  }

  /** Every visual line obeys the greedy wrapping rule. */
  lemma LinesWrapped(w: WidthFn, t: seq<char>, width: nat)
    ensures AllWellWrapped(w, width, VisualLines(w, t, width))
  {
    var s := ScanTo(w, t, width, |t|);
    var ls := VisualLines(w, t, width);
    ScanLinesWrapped(w, t, width, |t|);
    ScanInvariant(w, t, width, |t|);
    assert forall i :: 0 <= i < |s.done| ==> ls[i] == s.done[i];
    assert WellWrapped(w, width, ls[|s.done|]);
  }

  /** Start `i` is the byte length of the text that the lines before line `i` account for. */
  predicate BeginLines(starts: seq<nat>, ls: seq<VisualLine>) {
    && |starts| <= |ls| + 1
    && forall i :: 0 <= i < |starts| ==> starts[i] == ByteLen(Unsplit(ls[..i]))
  }

  /** One loop iteration keeps every start at the end of the lines before it. */
  lemma StepBeginLines(w: WidthFn, width: nat, p: Scan, c: char, next: nat, prefix: seq<char>)
    requires |p.starts| == |p.done| + 1
    requires BeginLines(p.starts, p.done)
    requires Unsplit(p.done) + p.current + [c] == prefix && next == ByteLen(prefix)
    ensures BeginLines(Step(w, width, p, c, next).starts, Step(w, width, p, c, next).done)
  {
    var s := Step(w, width, p, c, next);
    if EndsLine(w, width, p.lineWidth, c) {
      StepText(w, width, p, c, next);
      assert Unsplit(s.done) + [] == Unsplit(s.done);
      forall i | 0 <= i < |s.starts|
        ensures s.starts[i] == ByteLen(Unsplit(s.done[..i]))
      {
        if i < |p.starts| {
          assert p.starts[i] == ByteLen(Unsplit(p.done[..i]));
          assert s.done[..i] == p.done[..i];
        } else {
          assert s.done[..i] == s.done;
        }
      }
    }
  }

  /** Each line start of the scan is where the lines it closed so far leave off. */
  lemma {:induction false} ScanStartsAt(w: WidthFn, t: seq<char>, width: nat, k: nat)
    requires k <= |t|
    ensures BeginLines(ScanTo(w, t, width, k).starts, ScanTo(w, t, width, k).done)
  {
    if k > 0 {
      var p := ScanTo(w, t, width, k - 1);
      ScanStartsAt(w, t, width, k - 1);
      ScanText(w, t, width, k - 1);
      assert Unsplit(p.done) + p.current + [t[k - 1]] == t[..k];
      StepBeginLines(w, width, p, t[k - 1], Offset(t, k), t[..k]);
    }
  }

  /**
   * The cached line starts are where the visual lines begin: start `i` is the
   * byte length of the text the lines before line `i` account for.
   */
  lemma StartsBeginLines(w: WidthFn, t: seq<char>, width: nat)
    ensures BeginLines(LineStarts(w, t, width), VisualLines(w, t, width))
  {
    var s := ScanTo(w, t, width, |t|);
    var ls := VisualLines(w, t, width);
    var starts := LineStarts(w, t, width);
    ScanStartsAt(w, t, width, |t|);
    assert starts == s.starts;
    forall i | 0 <= i < |starts|
      ensures starts[i] == ByteLen(Unsplit(ls[..i]))
    {
      assert s.starts[i] == ByteLen(Unsplit(s.done[..i]));
      assert ls[..i] == s.done[..i];
    }
  }

  /**
   * Where `render` places the cursor: the line index and display column the
   * loop holds when it reaches the cursor's byte offset (or the end).
   */
  function Locate(w: WidthFn, t: seq<char>, width: nat, cursor: nat): (loc: (nat, nat))
    requires IsBoundary(t, cursor)
  {
    var s := ScanTo(w, t, width, Index(t, cursor));
    (s.lineIndex, s.lineWidth)
  }

  /**
   * The cursor's line is the last line starting at or before the cursor, and
   * its column is the display width of the characters from that line's start
   * up to the cursor.
   */
  lemma LocateIsLastLineStart(w: WidthFn, t: seq<char>, width: nat, cursor: nat)
    requires IsBoundary(t, cursor)
    ensures var starts, (line, column) := LineStarts(w, t, width), Locate(w, t, width, cursor);
      && line < |starts|
      && starts[line] <= cursor
      && (line + 1 < |starts| ==> cursor < starts[line + 1])
      && IsBoundary(t, starts[line])
      && Index(t, starts[line]) <= Index(t, cursor)
      && column == SumWidth(w, t[Index(t, starts[line])..Index(t, cursor)])
  {
    var k := Index(t, cursor);
    var s := ScanTo(w, t, width, k);
    var starts := LineStarts(w, t, width);
    ScanGrows(w, t, width, k, |t|);
    ScanInvariant(w, t, width, k);
    ScanStartsIncreasing(w, t, width, |t|);
    assert starts[s.lineIndex] == s.starts[s.lineIndex];
    BoundaryOfOffset(t, k - |s.current|);
    OffsetMonotone(t, k - |s.current|, k);
  }

  /**
   * `render`'s scroll update: the smallest change of the first displayed
   * line that keeps the cursor's line inside a window of `height` lines
   * (at least one).
   */
  function Scroll(prev: nat, cursorLine: nat, height: nat): (scroll: nat)
    ensures scroll <= cursorLine <= scroll + Max(height, 1) - 1
    ensures prev <= cursorLine <= prev + Max(height, 1) - 1 ==> scroll == prev
    ensures cursorLine < prev ==> scroll == cursorLine
    ensures cursorLine > prev + Max(height, 1) - 1 ==> scroll + Max(height, 1) - 1 == cursorLine
  {
    if cursorLine > prev then
      var diff := cursorLine - prev;
      var h := if height >= 1 then height - 1 else 0;
      if diff > h then prev + (diff - h) else prev
    else if prev > cursorLine then
      prev - (prev - cursorLine)
    else
      prev
  }

  /** Any other window position containing the cursor is at least as far from the prev one. */
  lemma ScrollMinimal(prev: nat, cursorLine: nat, height: nat, other: nat)
    requires other <= cursorLine <= other + Max(height, 1) - 1
    ensures var s := Scroll(prev, cursorLine, height);
      (if s >= prev then s - prev else prev - s) <= (if other >= prev then other - prev else prev - other)
  {
  }

  /** `drain(..).skip(scroll).take(height)`: the rows actually drawn. */
  function Visible<T>(rows: seq<T>, scroll: nat, height: nat): (v: seq<T>)
    ensures |v| == if scroll >= |rows| then 0 else Min(height, |rows| - scroll)
    ensures forall j :: 0 <= j < |v| ==> v[j] == rows[scroll + j]
  {
    if scroll >= |rows| then [] else rows[scroll..Min(scroll + height, |rows|)]
  }
}

=== FILE: pages.dfy ===
/**
 * The page controllers of src/pages.rs: the `Review` queue and the
 * `AddCard` and `EditCard` editors, each a state machine that takes a key
 * event and the card store and returns its next state, the updated store and
 * the `Action` the application loop should perform.
 *
 * The application's card store (`crate::database::Database`) is not part of
 * this model; it is reduced to what the pages use: the ids in iteration order
 * and each card's text.  A Rust panic (`unwrap` of a missing card, an editor
 * panic) is the result `None`.
 */
module Pages {
  import opened Wrappers
  import opened Database
  import Keys
  import Layout
  import Utf8
  import Editor

  /** `usize` on a 64-bit target. */
  const USIZE_MAX: int := U64_MAX
  type Usize = x: int | 0 <= x <= USIZE_MAX

  // ---------------------------------------------------------------------------
  // Routes, actions, shortcuts
  // ---------------------------------------------------------------------------

  datatype Route = Review | AddCard | EditCard(id: CardId)

  /** `Route::title`. */
  function Title(r: Route): string {
    match r
    case Review => "Review"
    case AddCard => "Add Card"
    case EditCard(_) => "Edit Card"
  }

  /** Two routes share a title exactly when they are the same kind of page. */
  lemma TitlesDistinct(a: Route, b: Route)
    ensures Title(a) == Title(b) <==> (a.Review? == b.Review? && a.AddCard? == b.AddCard?)
  {
  }

  /** What the application loop does after a key: `Action::None` is `Nothing`, `Action::Route` is `GoTo`. */
  datatype Action = Nothing | Render | GoTo(route: Route) | Quit

  /** The `SHORTCUT_*` hints shown at the bottom of a page. */
  datatype Shortcut =
    | ShortcutScroll | ShortcutEdit | ShortcutDelete | ShortcutSkip | ShortcutMenu
    | ShortcutQuit | ShortcutSave | ShortcutCancel | ShortcutPreview

  /** A page's reaction to a key: its next state, the store, and the action. */
  datatype Outcome<P> = Outcome(page: P, store: Store, action: Action)

  function Press(code: Keys.KeyCode, ctrl: bool): Keys.KeyEvent {
    Keys.KeyEvent(code, Keys.Modifiers(false, ctrl), Keys.Press)
  }

  // ---------------------------------------------------------------------------
  // The card store
  // ---------------------------------------------------------------------------

  /** The card store as the pages see it: ids in iteration order, and each card's text. */
  datatype Store = Store(order: seq<CardId>, cards: map<CardId, seq<char>>)

  predicate Distinct(s: seq<CardId>) {
    forall i, j :: 0 <= i < j < |s| ==> s[i] != s[j]
  }

  /** Every stored card is listed exactly once. */
  predicate StoreValid(db: Store) {
    && Distinct(db.order)
    && (forall id :: id in db.order ==> id in db.cards)
    && (forall id :: id in db.cards ==> id in db.order)
  }

  /** `s` with every occurrence of `x` removed, the rest in order. */
  function Without(s: seq<CardId>, x: CardId): (r: seq<CardId>)
    ensures forall y :: y in r <==> y in s && y != x
    ensures Distinct(s) ==> Distinct(r)
  {
    if |s| == 0 then []
    else
      var rest := Without(s[1..], x);
      assert Distinct(s) ==> s[0] !in s[1..];
      if s[0] == x then rest else [s[0]] + rest
  }

  /** `db.add`: the store hands out `id`, which no stored card has. */
  function StoreAdd(db: Store, id: CardId, text: seq<char>): (r: Store)
    requires id !in db.cards
    ensures StoreValid(db) ==> StoreValid(r)
    ensures r.cards == db.cards[id := text] && r.order == db.order + [id]
  {
    Store(db.order + [id], db.cards[id := text])
  }

  /** `db.remove`: the card is gone from both the order and the map. */
  function StoreRemove(db: Store, id: CardId): (r: Store)
    ensures StoreValid(db) ==> StoreValid(r)
    ensures r.cards == db.cards - {id}
    ensures forall x :: x in r.order <==> x in db.order && x != id
  {
    Store(Without(db.order, id), db.cards - {id})
  }

  // ---------------------------------------------------------------------------
  // Review
  // ---------------------------------------------------------------------------

  /** `ReviewState`; `None` is `NoCard`, `Review(id)` is `Reviewing(id)`. */
  datatype ReviewState = NoCard | Reviewing(id: CardId) | Done

  datatype ReviewPage = ReviewPage(
    due: seq<CardId>,
    total: Usize,
    progress: Usize,
    state: ReviewState,
    text: seq<char>,
    scroll: Usize)

  function ReviewNew(): ReviewPage {
    ReviewPage([], 0, 0, NoCard, [], 0)
  }

  function Reverse(s: seq<CardId>): (r: seq<CardId>)
    ensures |r| == |s|
  {
    if |s| == 0 then [] else Reverse(s[1..]) + [s[0]]
  }

  /**
   * `Review::on_enter`: the store's ids in reverse order are appended to the
   * queue, `total` becomes the queue's length, and the id at the back, if
   * any, is popped and its card's text appended to the shown text.
   */
  function ReviewOnEnter(r: ReviewPage, db: Store): (o: Option<ReviewPage>)
    requires |r.due| + |db.order| <= USIZE_MAX
    ensures var due := r.due + Reverse(db.order);
      && (o.None? <==> |due| > 0 && due[|due| - 1] !in db.cards)
      && (o.Some? ==> o.value.total == |due|)
      && (o.Some? && |due| == 0 ==> o.value == r.(total := 0))
      && (o.Some? && |due| > 0 ==>
            o.value == r.(due := due[..|due| - 1], total := |due|, state := Reviewing(due[|due| - 1]),
                          text := r.text + db.cards[due[|due| - 1]]))
  {
    var due := r.due + Reverse(db.order);
    if |due| == 0 then Some(r.(due := due, total := 0))
    else
      var id := due[|due| - 1];
      if id !in db.cards then None
      else Some(r.(due := due[..|due| - 1], total := |due|, state := Reviewing(id), text := r.text + db.cards[id]))
  }

  /** Entering from a fresh page counts every card and shows the first one in store order. */
  lemma ReviewEnterShowsFirst(db: Store)
    requires StoreValid(db) && |db.order| <= USIZE_MAX
    ensures var o := ReviewOnEnter(ReviewNew(), db);
      && o.Some?
      && o.value.total == |db.order|
      && (|db.order| == 0 ==> o.value.state == NoCard && o.value.text == [])
      && (|db.order| > 0 ==>
            && o.value.state == Reviewing(db.order[0])
            && o.value.text == db.cards[db.order[0]]
            && o.value.due == Reverse(db.order[1..]))
  {
    var due := [] + Reverse(db.order);
    assert due == Reverse(db.order);
    if |db.order| > 0 {
      assert due[|due| - 1] == db.order[0];
      assert due[..|due| - 1] == Reverse(db.order[1..]);
      assert db.order[0] in db.order;
    }
  }

  /** `saturating_sub(1)`. */
  function DecScroll(x: Usize): Usize {
    if x == 0 then 0 else x - 1
  }

  /** `saturating_add(1)`. */
  function IncScroll(x: Usize): Usize {
    if x == USIZE_MAX then x else x + 1
  }

  /**
   * Delete: the current card leaves the store; the card at the back of the
   * queue is popped and shown (replacing the text), or the review is `Done`.
   */
  function ReviewDelete(r: ReviewPage, id: CardId, db: Store): (o: Option<Outcome<ReviewPage>>)
    ensures o.None? <==> |r.due| > 0 && r.due[|r.due| - 1] !in StoreRemove(db, id).cards
    ensures o.Some? ==> o.value.store == StoreRemove(db, id) && o.value.action == Render
    ensures o.Some? && |r.due| == 0 ==> o.value.page == r.(state := Done)
    ensures o.Some? && |r.due| > 0 ==>
      var next := r.due[|r.due| - 1];
      o.value.page == r.(due := r.due[..|r.due| - 1], state := Reviewing(next), text := StoreRemove(db, id).cards[next])
  {
    var db' := StoreRemove(db, id);
    if |r.due| == 0 then Some(Outcome(r.(state := Done), db', Render))
    else
      var next := r.due[|r.due| - 1];
      if next !in db'.cards then None
      else Some(Outcome(r.(due := r.due[..|r.due| - 1], state := Reviewing(next), text := db'.cards[next]), db', Render))
  }

  /**
   * Skip (Right): with a non-empty queue the current id goes to the front,
   * the id at the back is popped and its card shown; with an empty queue the
   * key falls through to `Action::None` and nothing changes.
   */
  function ReviewSkip(r: ReviewPage, id: CardId, db: Store): (o: Option<Outcome<ReviewPage>>)
    ensures o.None? <==> |r.due| > 0 && r.due[|r.due| - 1] !in db.cards
    ensures |r.due| == 0 ==> o == Some(Outcome(r, db, Nothing))
    ensures o.Some? && |r.due| > 0 ==>
      && o.value.store == db && o.value.action == Render
      && o.value.page.state.Reviewing?
      && multiset{o.value.page.state.id} + multiset(o.value.page.due) == multiset{id} + multiset(r.due)
      && |o.value.page.due| > 0 && o.value.page.due[0] == id
      && o.value.page.state.id == r.due[|r.due| - 1]
      && o.value.page.text == db.cards[o.value.page.state.id]
  {
    if |r.due| == 0 then Some(Outcome(r, db, Nothing))
    else
      var next := r.due[|r.due| - 1];
      var rest := r.due[..|r.due| - 1];
      if next !in db.cards then None
      else
        assert r.due == rest + [next];
        Some(Outcome(r.(due := [id] + rest, state := Reviewing(next), text := db.cards[next]), db, Render))
  }

  /** `Review::on_input`; only key presses count. */
  function ReviewOnInput(r: ReviewPage, key: Keys.KeyEvent, db: Store): (o: Option<Outcome<ReviewPage>>)
    ensures o.Some? && o.value.action != Render ==> o.value.page == r && o.value.store == db
    ensures key.kind != Keys.Press ==> o == Some(Outcome(r, db, Nothing))
  {
    var ignore := Some(Outcome(r, db, Nothing));
    if key.kind != Keys.Press then ignore
    else
      match r.state
      case Reviewing(id) =>
        (match key.code
         case Esc => Some(Outcome(r, db, Quit))
         case Tab => Some(Outcome(r, db, GoTo(AddCard)))
         case Char(c) => if c == 'e' then Some(Outcome(r, db, GoTo(EditCard(id)))) else ignore
         case Delete => ReviewDelete(r, id, db)
         case Up => Some(Outcome(r.(scroll := DecScroll(r.scroll)), db, Render))
         case Down => Some(Outcome(r.(scroll := IncScroll(r.scroll)), db, Render))
         case Right => ReviewSkip(r, id, db)
         case _ => ignore)
      case _ =>
        (match key.code
         case Esc => Some(Outcome(r, db, Quit))
         case Tab => Some(Outcome(r, db, GoTo(AddCard)))
         case _ => ignore)
  }

  /**
   * The review page's key bindings, whatever the modifiers: Esc quits and Tab
   * opens the add page in every state; while a card is shown `e` edits it,
   * Delete deletes it, Right skips it and Up/Down scroll; every other press
   * does nothing.
   */
  lemma ReviewKeys(r: ReviewPage, key: Keys.KeyEvent, db: Store)
    requires key.kind == Keys.Press
    ensures key.code == Keys.Esc ==> ReviewOnInput(r, key, db) == Some(Outcome(r, db, Quit))
    ensures key.code == Keys.Tab ==> ReviewOnInput(r, key, db) == Some(Outcome(r, db, GoTo(AddCard)))
    ensures r.state.Reviewing? && key.code == Keys.Char('e') ==>
      ReviewOnInput(r, key, db) == Some(Outcome(r, db, GoTo(EditCard(r.state.id))))
    ensures r.state.Reviewing? && key.code == Keys.Delete ==> ReviewOnInput(r, key, db) == ReviewDelete(r, r.state.id, db)
    ensures r.state.Reviewing? && key.code == Keys.Right ==> ReviewOnInput(r, key, db) == ReviewSkip(r, r.state.id, db)
    ensures r.state.Reviewing? && key.code == Keys.Up ==>
      ReviewOnInput(r, key, db) == Some(Outcome(r.(scroll := if r.scroll == 0 then 0 else r.scroll - 1), db, Render))
    ensures r.state.Reviewing? && key.code == Keys.Down ==>
      ReviewOnInput(r, key, db) == Some(Outcome(r.(scroll := if r.scroll == USIZE_MAX then r.scroll else r.scroll + 1), db, Render))
    ensures r.state.Reviewing? && key.code !in {Keys.Esc, Keys.Tab, Keys.Char('e'), Keys.Delete, Keys.Right, Keys.Up, Keys.Down} ==>
      ReviewOnInput(r, key, db) == Some(Outcome(r, db, Nothing))
    ensures !r.state.Reviewing? && key.code !in {Keys.Esc, Keys.Tab} ==>
      ReviewOnInput(r, key, db) == Some(Outcome(r, db, Nothing))
  {
  }

  /** Up and Down move the review text by one line, saturating at both ends. */
  lemma ReviewScroll(r: ReviewPage, db: Store)
    requires r.state.Reviewing?
    ensures ReviewOnInput(r, Press(Keys.Up, false), db) == Some(Outcome(r.(scroll := if r.scroll == 0 then 0 else r.scroll - 1), db, Render))
    ensures ReviewOnInput(r, Press(Keys.Down, false), db) == Some(Outcome(r.(scroll := if r.scroll == USIZE_MAX then r.scroll else r.scroll + 1), db, Render))
  {
  }

  /** `Review::on_exit`: every field back to `Review::new()`. */
  function ReviewOnExit(r: ReviewPage): (o: ReviewPage)
    ensures o == ReviewNew()
  {
    r.(due := [], total := 0, progress := 0, state := NoCard, text := [], scroll := 0)
  }

  /** `Review::shortcuts`. */
  function ReviewShortcuts(r: ReviewPage): seq<Shortcut> {
    match r.state
    case Reviewing(_) =>
      if |r.due| == 0 then [ShortcutScroll, ShortcutEdit, ShortcutDelete, ShortcutMenu, ShortcutQuit]
      else [ShortcutScroll, ShortcutEdit, ShortcutDelete, ShortcutSkip, ShortcutMenu, ShortcutQuit]
    case _ => [ShortcutMenu, ShortcutQuit]
  }

  /**
   * The review invariant: the store is consistent, the queue holds distinct
   * stored ids, and the shown card is stored and not queued.
   */
  predicate ReviewInv(r: ReviewPage, db: Store) {
    && StoreValid(db)
    && Distinct(r.due)
    && (forall i :: 0 <= i < |r.due| ==> r.due[i] in db.cards)
    && (r.state.Reviewing? ==> r.state.id in db.cards && r.state.id !in r.due)
  }

  /** The skip hint is shown exactly when pressing Right would skip to another card. */
  lemma SkipShortcutHonest(r: ReviewPage, db: Store)
    requires ReviewInv(r, db)
    ensures ShortcutSkip in ReviewShortcuts(r) <==> ReviewOnInput(r, Press(Keys.Right, false), db).value.action == Render
  {
    if r.state.Reviewing? && |r.due| > 0 {
      assert r.due[|r.due| - 1] in db.cards;
    }
  }

  /** Entering a fresh review establishes the invariant. */
  lemma ReviewEnterInv(db: Store)
    requires StoreValid(db) && |db.order| <= USIZE_MAX
    ensures ReviewInv(ReviewOnEnter(ReviewNew(), db).value, db)
  {
    ReviewEnterShowsFirst(db);
    var o := ReviewOnEnter(ReviewNew(), db).value;
    if |db.order| > 0 {
      ReverseContents(db.order[1..]);
      DistinctTail(db.order);
      ReverseDistinct(db.order[1..]);
      assert db.order[0] in db.order;
      forall i | 0 <= i < |o.due|
        ensures o.due[i] in db.cards
      {
        assert o.due[i] in db.order[1..];
      }
      assert db.order[0] !in db.order[1..];
    }
  }

  lemma DistinctTail(s: seq<CardId>)
    requires |s| > 0 && Distinct(s)
    ensures Distinct(s[1..]) && s[0] !in s[1..]
  {
  }

  lemma {:induction false} ReverseContents(s: seq<CardId>)
    ensures forall x :: x in Reverse(s) <==> x in s
  {
    if |s| > 0 {
      ReverseContents(s[1..]);
    }
  }

  lemma {:induction false} ReverseDistinct(s: seq<CardId>)
    requires Distinct(s)
    ensures Distinct(Reverse(s))
  {
    if |s| > 0 {
      DistinctTail(s);
      ReverseDistinct(s[1..]);
      ReverseContents(s[1..]);
      var r := Reverse(s);
      assert r == Reverse(s[1..]) + [s[0]];
    }
  }

  /** Every key keeps the review invariant, and under it no key panics. */
  lemma ReviewInputInv(r: ReviewPage, key: Keys.KeyEvent, db: Store)
    requires ReviewInv(r, db)
    ensures ReviewOnInput(r, key, db).Some?
    ensures ReviewInv(ReviewOnInput(r, key, db).value.page, ReviewOnInput(r, key, db).value.store)
  {
    var o := ReviewOnInput(r, key, db);
    if key.kind == Keys.Press && r.state.Reviewing? {
      var id := r.state.id;
      match key.code
      case Delete =>
        assert o == ReviewDelete(r, id, db);
        ReviewDeleteInv(r, id, db);
      case Right =>
        assert o == ReviewSkip(r, id, db);
        ReviewSkipInv(r, id, db);
      case Up =>
        assert o.value == Outcome(r.(scroll := DecScroll(r.scroll)), db, Render);
      case Down =>
        assert o.value == Outcome(r.(scroll := IncScroll(r.scroll)), db, Render);
      case _ =>
        assert o.value.page == r && o.value.store == db;
    }
  }

  lemma ReviewDeleteInv(r: ReviewPage, id: CardId, db: Store)
    requires ReviewInv(r, db) && r.state == Reviewing(id)
    ensures ReviewDelete(r, id, db).Some?
    ensures ReviewInv(ReviewDelete(r, id, db).value.page, ReviewDelete(r, id, db).value.store)
  {
    if |r.due| > 0 {
      var n := |r.due| - 1;
      assert r.due[n] in db.cards && r.due[n] != id;
      assert r.due == r.due[..n] + [r.due[n]];
      var o := ReviewDelete(r, id, db).value;
      assert forall i :: 0 <= i < |o.page.due| ==> o.page.due[i] == r.due[i];
    }
  }

  lemma ReviewSkipInv(r: ReviewPage, id: CardId, db: Store)
    requires ReviewInv(r, db) && r.state == Reviewing(id)
    ensures ReviewSkip(r, id, db).Some?
    ensures ReviewInv(ReviewSkip(r, id, db).value.page, ReviewSkip(r, id, db).value.store)
  {
    if |r.due| > 0 {
      var n := |r.due| - 1;
      assert r.due[n] in db.cards;
      var rest := r.due[..n];
      assert r.due == rest + [r.due[n]];
      var due' := [id] + rest;
      assert forall i :: 1 <= i < |due'| ==> due'[i] == r.due[i - 1];
      assert Distinct(due');
    }
  }

  // ---------------------------------------------------------------------------
  // AddCard
  // ---------------------------------------------------------------------------

  datatype AddCardPage = AddCardPage(editor: Editor.TextEditor, preview: bool, scroll: Usize)

  function AddCardNew(): AddCardPage {
    AddCardPage(Editor.New(), false, 0)
  }

  /**
   * `AddCard::on_input`. `newId` is the id the store hands out if a card is
   * added.  Ctrl+S saves the editor text as a new card and resets the page;
   * Ctrl+P toggles the preview; outside the preview plain `s` and `p` are
   * typed and every other key goes to the editor; in the preview they are
   * ignored.  `None` is a panic of the editor (a vertical move before it was
   * ever drawn).
   */
  function AddCardOnInput(w: Layout.WidthFn, p: AddCardPage, key: Keys.KeyEvent, db: Store, newId: CardId): (o: Option<Outcome<AddCardPage>>)
    requires Editor.Valid(p.editor) && newId !in db.cards
    ensures o.Some? ==> Editor.Valid(o.value.page.editor)
    ensures o.Some? && o.value.store != db ==>
      key.kind == Keys.Press && key.code == Keys.Char('s') && key.modifiers.ctrl
    ensures o.None? ==> !p.preview && (key.code == Keys.Up || key.code == Keys.Down)
  {
    var ignore := Some(Outcome(p, db, Nothing));
    if key.kind != Keys.Press then ignore
    else
      match key.code
      case Esc => Some(Outcome(p, db, Quit))
      case Tab => Some(Outcome(p, db, GoTo(Review)))
      case Char(c) =>
        if c == 's' then
          if key.modifiers.ctrl then
            Some(Outcome(AddCardPage(Editor.Clear(p.editor), false, 0), StoreAdd(db, newId, p.editor.text), Render))
          else if !p.preview then Some(Outcome(p.(editor := Editor.PushChar(p.editor, 's')), db, Render))
          else ignore
        else if c == 'p' then
          if key.modifiers.ctrl then Some(Outcome(p.(preview := !p.preview), db, Render))
          else if !p.preview then Some(Outcome(p.(editor := Editor.PushChar(p.editor, 'p')), db, Render))
          else Some(Outcome(p, db, Render))
        else AddCardToEditor(w, p, key, db)
      case _ => AddCardToEditor(w, p, key, db)
  }

  /** The fall-through arm: outside the preview the key goes to the editor. */
  function AddCardToEditor(w: Layout.WidthFn, p: AddCardPage, key: Keys.KeyEvent, db: Store): (o: Option<Outcome<AddCardPage>>)
    requires Editor.Valid(p.editor)
    ensures o.Some? ==> Editor.Valid(o.value.page.editor) && o.value.store == db
    ensures p.preview ==> o == Some(Outcome(p, db, Nothing))
    ensures !p.preview ==> o == (match Editor.Input(w, p.editor, key.code, key.modifiers)
                                 case None => None
                                 case Some(e) => Some(Outcome(p.(editor := e), db, Render)))
  {
    if p.preview then Some(Outcome(p, db, Nothing))
    else
      match Editor.Input(w, p.editor, key.code, key.modifiers)
      case None => None
      case Some(e) => Some(Outcome(p.(editor := e), db, Render))
  }

  /** Ctrl+S adds exactly one card holding the editor text and resets the page. */
  lemma AddCardSave(w: Layout.WidthFn, p: AddCardPage, db: Store, newId: CardId)
    requires Editor.Valid(p.editor) && newId !in db.cards && StoreValid(db)
    ensures var o := AddCardOnInput(w, p, Press(Keys.Char('s'), true), db, newId);
      && o.Some? && o.value.action == Render
      && StoreValid(o.value.store)
      && o.value.store.cards == db.cards[newId := p.editor.text]
      && o.value.store.order == db.order + [newId]
      && o.value.page.editor.text == [] && o.value.page.editor.cursor == 0 && o.value.page.editor.anchor == None
      && !o.value.page.preview && o.value.page.scroll == 0
  {
  }

  /** Plain `s` and `p` are typed into the editor outside the preview and never inside it. */
  lemma AddCardPlainLetters(w: Layout.WidthFn, p: AddCardPage, db: Store, newId: CardId, c: char)
    requires Editor.Valid(p.editor) && newId !in db.cards
    requires c == 's' || c == 'p'
    ensures var o := AddCardOnInput(w, p, Press(Keys.Char(c), false), db, newId);
      && o.Some? && o.value.store == db
      && (p.preview ==> o.value.page == p)
      && (!p.preview ==> o.value.page == p.(editor := Editor.PushChar(p.editor, c)))
  {
  }

  /** Ctrl+P toggles the preview and leaves the text alone. */
  lemma AddCardTogglePreview(w: Layout.WidthFn, p: AddCardPage, db: Store, newId: CardId)
    requires Editor.Valid(p.editor) && newId !in db.cards
    ensures AddCardOnInput(w, p, Press(Keys.Char('p'), true), db, newId) == Some(Outcome(p.(preview := !p.preview), db, Render))
  {
  }

  /** The add page's navigation keys, whatever the modifiers: Esc quits and Tab goes to the review. */
  lemma AddCardNavigation(w: Layout.WidthFn, p: AddCardPage, key: Keys.KeyEvent, db: Store, newId: CardId)
    requires Editor.Valid(p.editor) && newId !in db.cards
    requires key.kind == Keys.Press
    ensures key.code == Keys.Esc ==> AddCardOnInput(w, p, key, db, newId) == Some(Outcome(p, db, Quit))
    ensures key.code == Keys.Tab ==> AddCardOnInput(w, p, key, db, newId) == Some(Outcome(p, db, GoTo(Review)))
  {
  }

  /** `AddCard::on_exit`: preview and scroll reset, the draft text kept. */
  function AddCardOnExit(p: AddCardPage): (o: AddCardPage)
    ensures o.editor == p.editor && !o.preview && o.scroll == 0
  {
    p.(preview := false, scroll := 0)
  }

  function AddCardShortcuts(p: AddCardPage): seq<Shortcut> {
    [ShortcutSave, ShortcutPreview, ShortcutMenu, ShortcutQuit]
  }

  // ---------------------------------------------------------------------------
  // EditCard
  // ---------------------------------------------------------------------------

  datatype EditCardPage = EditCardPage(cardId: CardId, editor: Editor.TextEditor, preview: bool, scroll: Usize)

  function EditCardNew(): EditCardPage {
    EditCardPage(Zero(), Editor.New(), false, 0)
  }

  /**
   * `EditCard::on_enter`: the card's text is typed into the editor at the
   * cursor and the cursor goes to the start; a missing card panics.
   */
  function EditCardOnEnter(w: Layout.WidthFn, p: EditCardPage, id: CardId, db: Store): (o: Option<EditCardPage>)
    requires Editor.Valid(p.editor)
    ensures o.None? <==> id !in db.cards
    ensures o.Some? ==>
      && o.value.cardId == id
      && Editor.Valid(o.value.editor)
      && o.value.editor.cursor == 0 && o.value.editor.anchor == None
      && o.value.editor.text == Editor.PushStr(p.editor, db.cards[id]).text
      && o.value.preview == p.preview && o.value.scroll == p.scroll
  {
    if id !in db.cards then None
    else
      var typed := Editor.PushStr(p.editor, db.cards[id]);
      match Editor.MoveCursor(w, typed, Editor.Start, false)
      case Some(e) => Some(p.(cardId := id, editor := e))
      case None => assert false; None
  }

  /** Entering with an empty editor (as every exit leaves it) loads exactly the card's text. */
  lemma EditCardLoads(w: Layout.WidthFn, p: EditCardPage, id: CardId, db: Store)
    requires Editor.Valid(p.editor) && p.editor.text == [] && p.editor.anchor == None && id in db.cards
    ensures var o := EditCardOnEnter(w, p, id, db);
      o.Some? && o.value.editor.text == db.cards[id] && o.value.editor.cursor == 0
  {
    Utf8.IndexOfOffset([], 0);
    assert p.editor.text[..0] + db.cards[id] + p.editor.text[0..] == db.cards[id];
  }

  /**
   * `EditCard::on_input`: Ctrl+S writes the editor text into the card and
   * goes back to the review (a card gone from the store panics), Ctrl+C goes
   * back without saving, Ctrl+P toggles the preview; otherwise as in `AddCard`,
   * except that Tab has no binding of its own and reaches the editor.
   */
  function EditCardOnInput(w: Layout.WidthFn, p: EditCardPage, key: Keys.KeyEvent, db: Store): (o: Option<Outcome<EditCardPage>>)
    requires Editor.Valid(p.editor)
    ensures o.Some? ==> Editor.Valid(o.value.page.editor) && o.value.page.cardId == p.cardId
    ensures o.Some? ==> o.value.store.order == db.order && o.value.store.cards.Keys == db.cards.Keys
    ensures o.Some? ==> forall id :: id in db.cards && id != p.cardId ==> o.value.store.cards[id] == db.cards[id]
    ensures o.None? <==>
      || (key.kind == Keys.Press && key.code == Keys.Char('s') && key.modifiers.ctrl && p.cardId !in db.cards)
      || (key.kind == Keys.Press && !p.preview && Editor.Input(w, p.editor, key.code, key.modifiers).None?)
  {
    var ignore := Some(Outcome(p, db, Nothing));
    if key.kind != Keys.Press then ignore
    else
      match key.code
      case Esc => Some(Outcome(p, db, Quit))
      case Char(c) =>
        if c == 's' then
          if key.modifiers.ctrl then
            if p.cardId !in db.cards then None
            else Some(Outcome(p, Store(db.order, db.cards[p.cardId := p.editor.text]), GoTo(Review)))
          else if !p.preview then Some(Outcome(p.(editor := Editor.PushChar(p.editor, 's')), db, Render))
          else ignore
        else if c == 'c' then
          if key.modifiers.ctrl then Some(Outcome(p, db, GoTo(Review)))
          else if !p.preview then Some(Outcome(p.(editor := Editor.PushChar(p.editor, 'c')), db, Render))
          else ignore
        else if c == 'p' then
          if key.modifiers.ctrl then Some(Outcome(p.(preview := !p.preview), db, Render))
          else if !p.preview then Some(Outcome(p.(editor := Editor.PushChar(p.editor, 'p')), db, Render))
          else Some(Outcome(p, db, Render))
        else EditCardToEditor(w, p, key, db)
      case _ => EditCardToEditor(w, p, key, db)
  }

  function EditCardToEditor(w: Layout.WidthFn, p: EditCardPage, key: Keys.KeyEvent, db: Store): (o: Option<Outcome<EditCardPage>>)
    requires Editor.Valid(p.editor)
    ensures o.Some? ==> Editor.Valid(o.value.page.editor) && o.value.store == db && o.value.page.cardId == p.cardId
    ensures p.preview ==> o == Some(Outcome(p, db, Nothing))
    ensures o.None? <==> !p.preview && Editor.Input(w, p.editor, key.code, key.modifiers).None?
  {
    if p.preview then Some(Outcome(p, db, Nothing))
    else
      match Editor.Input(w, p.editor, key.code, key.modifiers)
      case None => None
      case Some(e) => Some(Outcome(p.(editor := e), db, Render))
  }

  /** Ctrl+S saves the editor text into this card only and returns to the review. */
  lemma EditCardSave(w: Layout.WidthFn, p: EditCardPage, db: Store)
    requires Editor.Valid(p.editor) && p.cardId in db.cards && StoreValid(db)
    ensures var o := EditCardOnInput(w, p, Press(Keys.Char('s'), true), db);
      && o.Some? && o.value.action == GoTo(Review) && o.value.page == p
      && StoreValid(o.value.store)
      && o.value.store.cards == db.cards[p.cardId := p.editor.text]
  {
  }

  /** Plain `s`, `c` and `p` are typed outside the preview and never inside it. */
  lemma EditCardPlainLetters(w: Layout.WidthFn, p: EditCardPage, db: Store, c: char)
    requires Editor.Valid(p.editor)
    requires c == 's' || c == 'c' || c == 'p'
    ensures var o := EditCardOnInput(w, p, Press(Keys.Char(c), false), db);
      && o.Some? && o.value.store == db
      && (p.preview ==> o.value.page == p)
      && (!p.preview ==> o.value.page == p.(editor := Editor.PushChar(p.editor, c)))
  {
  }

  /**
   * The edit page's navigation keys: Esc quits and Ctrl+C goes back to the
   * review without touching the store or the page.
   */
  lemma EditCardNavigation(w: Layout.WidthFn, p: EditCardPage, key: Keys.KeyEvent, db: Store)
    requires Editor.Valid(p.editor)
    requires key.kind == Keys.Press
    ensures key.code == Keys.Esc ==> EditCardOnInput(w, p, key, db) == Some(Outcome(p, db, Quit))
    ensures key.code == Keys.Char('c') && key.modifiers.ctrl ==>
      EditCardOnInput(w, p, key, db) == Some(Outcome(p, db, GoTo(Review)))
  {
  }

  /** `EditCard::on_exit`: the editor is cleared, preview and scroll reset. */
  function EditCardOnExit(p: EditCardPage): (o: EditCardPage)
    ensures o.editor.text == [] && o.editor.cursor == 0 && o.editor.anchor == None
    ensures o.cardId == p.cardId && !o.preview && o.scroll == 0
    ensures Editor.Valid(o.editor)
  {
    p.(editor := Editor.Clear(p.editor), preview := false, scroll := 0)
  }

  /** Leaving the editor page and coming back to a card shows that card's text, not a mix. */
  lemma EditCardExitThenEnter(w: Layout.WidthFn, p: EditCardPage, id: CardId, db: Store)
    requires id in db.cards
    ensures var o := EditCardOnEnter(w, EditCardOnExit(p), id, db);
      o.Some? && o.value.editor.text == db.cards[id] && o.value.editor.cursor == 0
  {
    EditCardLoads(w, EditCardOnExit(p), id, db);
  }

  function EditCardShortcuts(p: EditCardPage): seq<Shortcut> {
    [ShortcutSave, ShortcutCancel, ShortcutPreview, ShortcutQuit]
  }

  /**
   * Each page advertises the menu shortcut exactly when Tab leads to another
   * page: `Review` and `AddCard` bind it, `EditCard` neither lists nor binds it.
   */
  lemma MenuShortcutMatchesTab(w: Layout.WidthFn, r: ReviewPage, a: AddCardPage, e: EditCardPage, db: Store, newId: CardId)
    requires Editor.Valid(a.editor) && Editor.Valid(e.editor) && newId !in db.cards
    ensures ShortcutMenu in ReviewShortcuts(r) <==> ReviewOnInput(r, Press(Keys.Tab, false), db).value.action.GoTo?
    ensures ShortcutMenu in AddCardShortcuts(a) <==> AddCardOnInput(w, a, Press(Keys.Tab, false), db, newId).value.action.GoTo?
    ensures var o := EditCardOnInput(w, e, Press(Keys.Tab, false), db);
      ShortcutMenu in EditCardShortcuts(e) <==> o.Some? && o.value.action.GoTo?
  {
  }
}

=== FILE: rows.dfy ===
/**
 * Row styling, the second half of the render loop in src/editor.rs.
 *
 * Every character is drawn as at most one span, styled as the cursor, as
 * part of the selection, or plainly. A `'\n'` is drawn as a blank cell only
 * when it carries the cursor or the selection. The span goes to the row of
 * the visual line the character belongs to, and a cursor sitting at the end
 * of the text gets a synthetic blank cell at the end of the last row.
 */
module Styling {
  import opened Wrappers
  import opened Utf8
  import opened Layout

  datatype Style = Normal | Selected | Cursor

  /** A run of text drawn in one style (a ratatui `Span`, without colours). */
  datatype Span = Span(text: seq<char>, style: Style)

  type Row = seq<Span>

  /** The first byte of the highlighted range: the smaller of cursor and anchor. */
  function SelectionLow(cursor: nat, anchor: Option<nat>): nat {
    Min(cursor, anchor.GetOr(cursor))
  }

  /** The last byte of the highlighted range, inclusive: the larger of the two. */
  function SelectionHigh(cursor: nat, anchor: Option<nat>): nat {
    Max(anchor.GetOr(cursor), cursor)
  }

  /**
   * The style of the character starting at byte `b`. The cursor wins over
   * the selection; the selection covers both of its ends.
   */
  function StyleAt(cursor: nat, anchor: Option<nat>, b: nat): (st: Style)
    ensures st == Cursor <==> b == cursor
    ensures st == Normal <==> b < SelectionLow(cursor, anchor) || SelectionHigh(cursor, anchor) < b
  {
    if b == cursor then Cursor
    else if SelectionLow(cursor, anchor) <= b <= SelectionHigh(cursor, anchor) then Selected
    else Normal
  }

  /**
   * The spans the loop pushes for character `c` at byte `b` of a text of
   * `len` bytes: a newline only shows as a blank cell when it is the cursor
   * or selected, any other character shows as itself.
   */
  function CharSpans(c: char, st: Style, b: nat, len: nat): seq<Span> {
    if c == '\n' then
      if st == Cursor || (st == Selected && b < len) then [Span(" ", st)] else []
    else
      [Span([c], st)]
  }

  /** Appends spans to the last row. */
  function AppendToLast(rows: seq<Row>, x: seq<Span>): (r: seq<Row>)
    requires |rows| >= 1
    ensures |r| == |rows|
    ensures r[..|r| - 1] == rows[..|rows| - 1]
    ensures r[|r| - 1] == rows[|rows| - 1] + x
  {
    rows[..|rows| - 1] + [rows[|rows| - 1] + x]
  }

  /** The rows (`line_spans`) after the loop has handled the first `k` characters. */
  function RowsTo(w: WidthFn, t: seq<char>, width: nat, cursor: nat, anchor: Option<nat>, k: nat): (rows: seq<Row>)
    requires k <= |t|
    ensures |rows| == ScanTo(w, t, width, k).lineIndex + 1
    decreases k
  {
    if k == 0 then [[]]
    else
      var prev := RowsTo(w, t, width, cursor, anchor, k - 1);
      var b := Offset(t, k - 1);
      var r := AppendToLast(prev, CharSpans(t[k - 1], StyleAt(cursor, anchor, b), b, ByteLen(t)));
      if EndsLine(w, width, ScanTo(w, t, width, k - 1).lineWidth, t[k - 1]) then r + [[]] else r
  }

  /** All rows `render` builds, before scrolling picks the visible ones. */
  function Rows(w: WidthFn, t: seq<char>, width: nat, cursor: nat, anchor: Option<nat>): (rows: seq<Row>)
    ensures |rows| == |LineStarts(w, t, width)|
  {
    var r := RowsTo(w, t, width, cursor, anchor, |t|);
    if cursor == ByteLen(t) then AppendToLast(r, [Span(" ", Cursor)]) else r
  }

  /** The spans of the rows, read row after row. */
  function Concat(rows: seq<Row>): seq<Span> {
    if |rows| == 0 then [] else Concat(rows[..|rows| - 1]) + rows[|rows| - 1]
  }

  lemma ConcatAppendToLast(rows: seq<Row>, x: seq<Span>)
    requires |rows| >= 1
    ensures Concat(AppendToLast(rows, x)) == Concat(rows) + x
  {
    var r := AppendToLast(rows, x);
    assert r[..|r| - 1] == rows[..|rows| - 1];
  }

  lemma ConcatEmptyRow(rows: seq<Row>)
    ensures Concat(rows + [[]]) == Concat(rows)
  {
    assert (rows + [[]])[..|rows|] == rows;
  }

  lemma ConcatStep(prev: seq<Row>, x: seq<Span>, newRow: bool)
    requires |prev| >= 1
    ensures var r := AppendToLast(prev, x);
      Concat(if newRow then r + [[]] else r) == Concat(prev) + x
  {
    ConcatAppendToLast(prev, x);
    ConcatEmptyRow(AppendToLast(prev, x));
  }

  /**
   * The spans of the first `k` characters, each character on its own,
   * without any notion of lines.
   */
  function SpansTo(t: seq<char>, cursor: nat, anchor: Option<nat>, k: nat): seq<Span>
    requires k <= |t|
  {
    if k == 0 then []
    else
      var b := Offset(t, k - 1);
      SpansTo(t, cursor, anchor, k - 1) + CharSpans(t[k - 1], StyleAt(cursor, anchor, b), b, ByteLen(t))
  }

  /** Wrapping only distributes spans over rows: read in order they are the characters' spans. */
  lemma {:induction false} RowsToSpans(w: WidthFn, t: seq<char>, width: nat, cursor: nat, anchor: Option<nat>, k: nat)
    requires k <= |t|
    ensures Concat(RowsTo(w, t, width, cursor, anchor, k)) == SpansTo(t, cursor, anchor, k)
  {
    if k > 0 {
      RowsToSpans(w, t, width, cursor, anchor, k - 1);
      var prev := RowsTo(w, t, width, cursor, anchor, k - 1);
      var b := Offset(t, k - 1);
      var x := CharSpans(t[k - 1], StyleAt(cursor, anchor, b), b, ByteLen(t));
      var ends := EndsLine(w, width, ScanTo(w, t, width, k - 1).lineWidth, t[k - 1]);
      var r := AppendToLast(prev, x);
      assert RowsTo(w, t, width, cursor, anchor, k) == if ends then r + [[]] else r;
      assert SpansTo(t, cursor, anchor, k) == SpansTo(t, cursor, anchor, k - 1) + x;
      ConcatStep(prev, x, ends);
    }
  }

  /**
   * All rows read in order are the spans of every character, followed by the
   * synthetic cursor cell exactly when the cursor is at the end of the text.
   */
  lemma RowsSpans(w: WidthFn, t: seq<char>, width: nat, cursor: nat, anchor: Option<nat>)
    ensures Concat(Rows(w, t, width, cursor, anchor))
         == SpansTo(t, cursor, anchor, |t|) + (if cursor == ByteLen(t) then [Span(" ", Cursor)] else [])
  {
    RowsToSpans(w, t, width, cursor, anchor, |t|);
    if cursor == ByteLen(t) {
      ConcatAppendToLast(RowsTo(w, t, width, cursor, anchor, |t|), [Span(" ", Cursor)]);
    }
  }

  /** A row with no cursor cell. */
  predicate CursorFree(row: Row) {
    forall i :: 0 <= i < |row| ==> row[i].style != Cursor
  }

  /** Line indexes only grow as the scan advances. */
  lemma LineIndexMonotone(w: WidthFn, t: seq<char>, width: nat, i: nat, j: nat)
    requires i <= j <= |t|
    ensures ScanTo(w, t, width, i).lineIndex <= ScanTo(w, t, width, j).lineIndex
  {
    ScanGrows(w, t, width, i, j);
  }

  /**
   * The cursor cell is drawn in row `line` and in no other row when
   * `present`, and in no row at all otherwise.
   */
  predicate CursorOnlyIn(rows: seq<Row>, line: nat, present: bool) {
    && (present ==> line < |rows|)
    && forall j :: 0 <= j < |rows| ==> (!CursorFree(rows[j]) <==> present && j == line)
  }

  /** The spans of a character contain the cursor exactly when it is styled as the cursor. */
  lemma CharSpansCursor(c: char, st: Style, b: nat, len: nat)
    ensures CursorFree(CharSpans(c, st, b, len)) <==> st != Cursor
  {
    if st == Cursor {
      assert CharSpans(c, st, b, len)[0].style == Cursor;
    }
  }

  lemma CursorFreeAppend(a: Row, x: Row)
    ensures CursorFree(a + x) <==> CursorFree(a) && CursorFree(x)
  {
    if CursorFree(a) && CursorFree(x) {
      forall i | 0 <= i < |a + x|
        ensures (a + x)[i].style != Cursor
      {
        if i >= |a| {
          assert (a + x)[i] == x[i - |a|];
        }
      }
    } else if !CursorFree(a) {
      var i :| 0 <= i < |a| && a[i].style == Cursor;
      assert (a + x)[i] == a[i];
    } else {
      var i :| 0 <= i < |x| && x[i].style == Cursor;
      assert (a + x)[|a| + i] == x[i];
    }
  }

  /** Appending spans to the last row, and perhaps opening a new row, moves the cursor cell only if the spans hold it. */
  lemma AppendCursor(prev: seq<Row>, x: seq<Span>, line: nat, present: bool, newRow: bool)
    requires |prev| >= 1
    requires CursorOnlyIn(prev, line, present)
    requires !CursorFree(x) ==> !present
    ensures var r := AppendToLast(prev, x);
      var r' := if newRow then r + [[]] else r;
      if CursorFree(x) then CursorOnlyIn(r', line, present) else CursorOnlyIn(r', |prev| - 1, true)
  {
    var r := AppendToLast(prev, x);
    var r' := if newRow then r + [[]] else r;
    var last := |prev| - 1;
    CursorFreeAppend(prev[last], x);
    var line', present' := if CursorFree(x) then line else last, if CursorFree(x) then present else true;
    forall j | 0 <= j < |r'|
      ensures !CursorFree(r'[j]) <==> present' && j == line'
    {
      if j < last {
        assert r'[j] == r[..last][j] == prev[j];
      } else if j == last {
        assert r'[j] == prev[last] + x;
      } else {
        assert r'[j] == [];
      }
    }
  }

  /** The cursor cell sits in the row of the cursor's line once the loop has passed the cursor, and nowhere before. */
  lemma {:induction false} RowsToCursor(w: WidthFn, t: seq<char>, width: nat, cursor: nat, anchor: Option<nat>, k: nat)
    requires k <= |t|
    requires IsBoundary(t, cursor)
    ensures var ci := Index(t, cursor);
      CursorOnlyIn(RowsTo(w, t, width, cursor, anchor, k),
                   if ci < k then ScanTo(w, t, width, ci).lineIndex else 0,
                   ci < k)
  {
    if k > 0 {
      var ci := Index(t, cursor);
      RowsToCursor(w, t, width, cursor, anchor, k - 1);
      var prev := RowsTo(w, t, width, cursor, anchor, k - 1);
      var b := Offset(t, k - 1);
      var st := StyleAt(cursor, anchor, b);
      var x := CharSpans(t[k - 1], st, b, ByteLen(t));
      CharSpansCursor(t[k - 1], st, b, ByteLen(t));
      BoundaryOfOffset(t, k - 1);
      assert st == Cursor <==> ci == k - 1;
      if ci < k {
        LineIndexMonotone(w, t, width, ci, k - 1);
      }
      AppendCursor(prev, x, if ci < k - 1 then ScanTo(w, t, width, ci).lineIndex else 0, ci < k - 1,
                   EndsLine(w, width, ScanTo(w, t, width, k - 1).lineWidth, t[k - 1]));
    }
  }

  /**
   * Exactly one row holds the cursor cell: the row of the line `render`
   * locates the cursor on.
   */
  lemma CursorRow(w: WidthFn, t: seq<char>, width: nat, cursor: nat, anchor: Option<nat>)
    requires IsBoundary(t, cursor)
    ensures CursorOnlyIn(Rows(w, t, width, cursor, anchor), Locate(w, t, width, cursor).0, true)
  {
    var r := RowsTo(w, t, width, cursor, anchor, |t|);
    RowsToCursor(w, t, width, cursor, anchor, |t|);
    BoundaryEnds(t);
    IndexOrder(t, cursor, ByteLen(t));
    BoundaryBounded(t, cursor);
    if cursor == ByteLen(t) {
      var cell := [Span(" ", Cursor)];
      assert !CursorFree(cell) by {
        assert cell[0].style == Cursor;
      }
      AppendCursor(r, cell, 0, false, false);
    }
  }
}

=== FILE: utf8.dfy ===
/**
 * Byte offsets into UTF-8 text, modelled over `seq<char>`.
 *
 * The editor stores its cursor and selection anchor as byte offsets into a
 * Rust `String`. A byte offset is only usable (for slicing, inserting,
 * removing) when it is a character boundary; `IsBoundary` says when, and
 * `Index` turns a boundary back into a character index.
 */
module Utf8 {
  import opened Wrappers

  /** `char::len_utf8`: the number of bytes UTF-8 spends on `c`. */
  function Utf8Len(c: char): (n: nat)
    ensures 1 <= n <= 4
    ensures n == 1 <==> (c as int) < 0x80
  {
    if (c as int) < 0x80 then 1
    else if (c as int) < 0x800 then 2
    else if (c as int) < 0x1_0000 then 3
    else 4
  }

  /** `str::len`: the byte length of the UTF-8 encoding of `s`. */
  function ByteLen(s: seq<char>): nat {
    if |s| == 0 then 0 else Utf8Len(s[0]) + ByteLen(s[1..])
  }

  lemma {:induction false} ByteLenConcat(a: seq<char>, b: seq<char>)
    ensures ByteLen(a + b) == ByteLen(a) + ByteLen(b)
  {
    if |a| == 0 {
      assert a + b == b;
    } else {
      assert (a + b)[0] == a[0];
      assert (a + b)[1..] == a[1..] + b;
      ByteLenConcat(a[1..], b);
    }
  }

  /** The byte offset at which character `k` of `s` starts. */
  function Offset(s: seq<char>, k: nat): nat
    requires k <= |s|
  {
    ByteLen(s[..k])
  }

  lemma OffsetZero(s: seq<char>)
    ensures Offset(s, 0) == 0
  {
  }

  lemma OffsetEnd(s: seq<char>)
    ensures Offset(s, |s|) == ByteLen(s)
  {
    assert s[..|s|] == s;
  }

  /** Stepping over character `k` advances the offset by its encoded length. */
  lemma OffsetStep(s: seq<char>, k: nat)
    requires k < |s|
    ensures Offset(s, k + 1) == Offset(s, k) + Utf8Len(s[k])
  {
    assert s[..k + 1] == s[..k] + [s[k]];
    ByteLenConcat(s[..k], [s[k]]);
    assert [s[k]][1..] == [];
  }

  /** Offsets of a sequence seen from its second character. */
  lemma OffsetCons(s: seq<char>, k: nat)
    requires 1 <= k <= |s|
    ensures Offset(s, k) == Utf8Len(s[0]) + Offset(s[1..], k - 1)
  {
    assert s[..k][0] == s[0];
    assert s[..k][1..] == s[1..][..k - 1];
  }

  /** Offsets grow strictly with the character index. */
  lemma {:induction false} OffsetStrict(s: seq<char>, i: nat, j: nat)
    requires i < j <= |s|
    ensures Offset(s, i) < Offset(s, j)
  {
    OffsetStep(s, j - 1);
    if i < j - 1 {
      OffsetStrict(s, i, j - 1);
    }
  }

  lemma OffsetMonotone(s: seq<char>, i: nat, j: nat)
    requires i <= j <= |s|
    ensures Offset(s, i) <= Offset(s, j)
  {
    if i < j {
      OffsetStrict(s, i, j);
    }
  }

  lemma OffsetInjective(s: seq<char>, i: nat, j: nat)
    requires i <= |s| && j <= |s|
    requires Offset(s, i) == Offset(s, j)
    ensures i == j
  {
    if i < j {
      OffsetStrict(s, i, j);
    } else if j < i {
      OffsetStrict(s, j, i);
    }
  }

  /** The offsets of a prefix are the offsets of the whole. */
  lemma OffsetPrefix(s: seq<char>, t: seq<char>, k: nat)
    requires k <= |s|
    ensures Offset(s + t, k) == Offset(s, k)
  {
    assert (s + t)[..k] == s[..k];
  }

  /**
   * The character index at which byte offset `b` falls, when `b` is a
   * character boundary of `s`; `None` when `b` is inside a character or past
   * the end (where Rust's string slicing panics).
   */
  function IndexOf(s: seq<char>, b: nat): (r: Option<nat>)
    ensures r.Some? ==> r.value <= |s| && Offset(s, r.value) == b
  {
    if b == 0 then Some(0)
    else if |s| == 0 || b < Utf8Len(s[0]) then None
    else
      match IndexOf(s[1..], b - Utf8Len(s[0]))
      case None => None
      case Some(k) =>
        OffsetCons(s, k + 1);
        Some(k + 1)
  }

  /** Every character start is found by `IndexOf`. */
  lemma {:induction false} IndexOfOffset(s: seq<char>, k: nat)
    requires k <= |s|
    ensures IndexOf(s, Offset(s, k)) == Some(k)
  {
    if k > 0 {
      OffsetCons(s, k);
      IndexOfOffset(s[1..], k - 1);
    }
  }

  predicate IsBoundary(s: seq<char>, b: nat) {
    IndexOf(s, b).Some?
  }

  function Index(s: seq<char>, b: nat): (k: nat)
    requires IsBoundary(s, b)
    ensures k <= |s| && Offset(s, k) == b
  {
    IndexOf(s, b).value
  }

  /** A boundary is exactly the offset of some character index. */
  lemma BoundaryOfOffset(s: seq<char>, k: nat)
    requires k <= |s|
    ensures IsBoundary(s, Offset(s, k)) && Index(s, Offset(s, k)) == k
  {
    IndexOfOffset(s, k);
  }

  lemma BoundaryEnds(s: seq<char>)
    ensures IsBoundary(s, 0) && Index(s, 0) == 0
    ensures IsBoundary(s, ByteLen(s)) && Index(s, ByteLen(s)) == |s|
  {
    OffsetEnd(s);
    BoundaryOfOffset(s, |s|);
  }

  lemma BoundaryBounded(s: seq<char>, b: nat)
    requires IsBoundary(s, b)
    ensures b <= ByteLen(s)
  {
    OffsetEnd(s);
    OffsetMonotone(s, Index(s, b), |s|);
  }

  /** Comparing boundaries is comparing their character indexes. */
  lemma IndexOrder(s: seq<char>, x: nat, y: nat)
    requires IsBoundary(s, x) && IsBoundary(s, y)
    ensures x < y <==> Index(s, x) < Index(s, y)
    ensures x == y <==> Index(s, x) == Index(s, y)
  {
    var i, j := Index(s, x), Index(s, y);
    if i < j {
      OffsetStrict(s, i, j);
    } else if j < i {
      OffsetStrict(s, j, i);
    }
  }

  /**
   * `s[b..].chars().next()`: the character starting at boundary `b`, if any.
   * Stepping over it lands on the next boundary.
   */
  function CharAfter(s: seq<char>, b: nat): (r: Option<char>)
    requires IsBoundary(s, b)
    ensures r.Some? <==> b < ByteLen(s)
    ensures r.Some? ==> Index(s, b) < |s| && r.value == s[Index(s, b)]
    ensures r.Some? ==>
      && IsBoundary(s, b + Utf8Len(r.value))
      && Index(s, b + Utf8Len(r.value)) == Index(s, b) + 1
  {
    var k := Index(s, b);
    OffsetEnd(s);
    if k < |s| then
      OffsetStrict(s, k, |s|);
      OffsetStep(s, k);
      BoundaryOfOffset(s, k + 1);
      Some(s[k])
    else
      None
  }

  /**
   * `s[b..].chars().next().map(|c| b + c.len_utf8()).unwrap_or(s.len())`:
   * the end of the character starting at `b`, or the end of the text.
   */
  function CharEnd(s: seq<char>, b: nat): (e: nat)
    requires IsBoundary(s, b)
    ensures b <= e && IsBoundary(s, e)
    ensures Index(s, e) == Min(Index(s, b) + 1, |s|)
  {
    BoundaryEnds(s);
    match CharAfter(s, b)
    case Some(c) => b + Utf8Len(c)
    case None =>
      IndexOrder(s, b, ByteLen(s));
      BoundaryBounded(s, b);
      ByteLen(s)
  }

  /**
   * `s[..b].chars().rev().next()`: the character ending at boundary `b`, if
   * any. Stepping back over it lands on the previous boundary.
   */
  function CharBefore(s: seq<char>, b: nat): (r: Option<char>)
    requires IsBoundary(s, b)
    ensures r.Some? <==> b > 0
    ensures r.Some? ==> r.value == s[Index(s, b) - 1]
    ensures r.Some? ==>
      && b >= Utf8Len(r.value)
      && IsBoundary(s, b - Utf8Len(r.value))
      && Index(s, b - Utf8Len(r.value)) == Index(s, b) - 1
  {
    var k := Index(s, b);
    if k > 0 then
      OffsetStep(s, k - 1);
      BoundaryOfOffset(s, k - 1);
      Some(s[k - 1])
    else
      None
  }

  /**
   * `String::replace_range(x..y, ins)`: replace the bytes `[x, y)` by `ins`.
   * Both ends must be boundaries (Rust panics otherwise). Insertion is the
   * case `x == y`, removal the case `ins == []`.
   */
  function ReplaceRange(s: seq<char>, x: nat, y: nat, ins: seq<char>): (r: seq<char>)
    requires IsBoundary(s, x) && IsBoundary(s, y) && x <= y
    ensures Index(s, x) <= Index(s, y)
    ensures r == s[..Index(s, x)] + ins + s[Index(s, y)..]
    ensures ByteLen(r) + (y - x) == ByteLen(s) + ByteLen(ins)
  {
    IndexOrder(s, x, y);
    var i, j := Index(s, x), Index(s, y);
    assert s == s[..i] + s[i..j] + s[j..];
    ByteLenConcat(s[..i] + s[i..j], s[j..]);
    ByteLenConcat(s[..i], s[i..j]);
    ByteLenConcat(s[..i] + ins, s[j..]);
    ByteLenConcat(s[..i], ins);
    assert s[..j] == s[..i] + s[i..j];
    ByteLenConcat(s[..i], s[i..j]);
    s[..i] + ins + s[j..]
  }

  /** In `a + m + z`, the offsets at both ends of `m`. */
  lemma SpliceOffsets(a: seq<char>, m: seq<char>, z: seq<char>)
    ensures Offset(a + m + z, |a|) == ByteLen(a)
    ensures Offset(a + m + z, |a| + |m|) == ByteLen(a) + ByteLen(m)
  {
    assert a + m + z == a + (m + z);
    PrefixOffset(a, m + z);
    PrefixOffset(a + m, z);
    ByteLenConcat(a, m);
  }

  /** The offset just past a prefix is the byte length of that prefix. */
  lemma PrefixOffset(a: seq<char>, b: seq<char>)
    ensures Offset(a + b, |a|) == ByteLen(a)
  {
    assert (a + b)[..|a|] == a;
  }

  /** Boundaries before the replaced range are untouched by it. */
  lemma ReplaceRangeKeepsBefore(s: seq<char>, x: nat, y: nat, ins: seq<char>, b: nat)
    requires IsBoundary(s, x) && IsBoundary(s, y) && x <= y
    requires IsBoundary(s, b) && b <= x
    ensures IsBoundary(ReplaceRange(s, x, y, ins), b)
  {
    var r := ReplaceRange(s, x, y, ins);
    var k := Index(s, b);
    IndexOrder(s, b, x);
    assert r[..k] == s[..k];
    BoundaryOfOffset(r, k);
  }
}

=== FILE: wrappers.dfy ===
/** Small failure-carrying datatypes shared by every module of the model. */
module Wrappers {

  /** Rust's `Option<T>`. */
  datatype Option<+T> = None | Some(value: T) {

    /** `unwrap_or`: the carried value, or `default` when there is none. */
    function GetOr(default: T): T {
      match this
      case Some(v) => v
      case None => default
    }
  }

  /** Rust's `Result<T, E>`. */
  datatype Result<+T, +E> = Ok(value: T) | Err(error: E)

  function Min(a: int, b: int): int {
    if a <= b then a else b
  }

  function Max(a: int, b: int): int {
    if a >= b then a else b
  }
}
